=== FILE: README.md ===
# Delsi chat and insights core, modelled in Dafny

This project models the logic of the three pages of the Delsi support app that do
more than render:

- **Insights** (`Delsi/Pages/Insigths.js`) aggregates the stored session records. It builds the
  seven-day chart, the mood distribution, the top-five topic ranking, the total and
  average minutes, and the current streak.
- **Chat** (`Delsi/Pages/Chat.js`) holds the session engine. It covers:
  - the numbered message log;
  - the guarded send that starts the session lazily and builds the reply prompt from the last six messages;
  - the guarded end that computes the duration, renders the transcript and builds the stored record;
  - the speech-recognition result merge into the input buffer;
  - the listening and speaking flags.
- **Onboarding** (`Onboarding.js`) is a six-step wizard. It has Next and Back, a save-gated step, a per-step check, and a multi-select toggle.

Everything is pure functions over immutable datatypes:

- Calendar days are integer day numbers and times are integer milliseconds.
- Each asynchronous collaborator becomes an input to the step that awaits it. These are the language model, the session store, the user store and the speech engines.
- An `Outcome` (`Ok(value)` or `Failed`) models a thrown error.

| file | module | models |
|---|---|---|
| wrappers.dfy | `Wrappers` | `Option` (null/undefined) and `Outcome` (a call that may throw) |
| text.dfy | `Text` | JavaScript `trim` (full ECMAScript white-space set) and `join` |
| rounding.dfy | `Rounding` | `Math.round(a / b)` on integers: nearest, halves up |
| seqs.dfy | `Seqs` | reference counting and summing over sequences |
| sessions.dfy | `Sessions` | mood labels, mood score, the stored session record |
| weekly.dfy | `Weekly` | `generateWeeklyData` |
| mood_stats.dfy | `MoodStats` | `getMoodDistribution` |
| topics.dfy | `Topics` | `getTopTopics` |
| totals.dfy | `Totals` | `getTotalMinutes`, `getAverageSessionLength` |
| streak.dfy | `Streak` | `getCurrentStreak` |
| recognition.dfy | `Recognition` | the loop inside `recognition.onresult` |
| chat.dfy | `Chat` | the chat page's state, its handlers, and runs of events |
| onboarding.dfy | `Onboarding` | `STEPS`, `handleNext`, `handleBack`, `canProceed`, `handleExpectationToggle` |

Behaviour worth noting:

- **Late speech results.** In `Delsi/Pages/Chat.js:231-249` the result handler never consults the listening flag or the installed handle. Results that arrive after `stopVoiceRecording` (`Delsi/Pages/Chat.js:263-268`) therefore still reach the input (`Chat.ResultsAfterStopStillCommit`).
- **Clearing the interim text.** In `Delsi/Pages/Chat.js:244-248` the interim display is cleared only when the concatenated final text is a non-empty string. A final result with an empty transcript leaves the interim text shown (`Chat.OnRecognitionResult`).
- **Guard on ending a session.** `endSession` (`Delsi/Pages/Chat.js:73-74`) returns early only when no session is active or no start time is recorded. It does not look at the loading flag; only its button is disabled while loading (`Delsi/Pages/Chat.js:313-314`). `Chat.EndSession` has exactly this guard.
- **Focus-area fallback.** `user?.expectations?.join(', ') || 'General support'` (`Delsi/Pages/Chat.js:171`) falls back whenever the join is the empty string. That covers a missing user, a missing list, an empty list, and also the list `[""]` (`Chat.FocusFallbackIff`).

## Model

| member | source | states |
|---|---|---|
| Text.TrimEmptyIffBlank | Delsi/Pages/Chat.js:142 | `input.trim()` is empty exactly when every character is white space |
| Text.JoinSnoc | Delsi/Pages/Chat.js:77-79 | joining one more line extends the text by the separator and that line |
| Text.JoinEmptyIff | Delsi/Pages/Chat.js:171 | with a non-empty separator the join is empty iff the list is empty or is one empty string |
| Rounding.RoundDiv | Delsi/Pages/Insigths.js:120 | `Math.round(a / b)` is the integer r with 2br − b ≤ 2a < 2br + b (nearest, halves up) |
| Rounding.RoundDivUnique | Delsi/Pages/Chat.js:76 | that nearest-integer condition determines the rounded value uniquely |
| Sessions.MoodLabelRoundTrip | Delsi/Pages/Insigths.js:78-89 | the five stored labels and the five moods correspond one to one |
| Sessions.MoodScore | Delsi/Pages/Insigths.js:43-50 | very_sad..very_happy score 1..5; a missing or unknown mood scores 3 |
| Weekly.EmptyWeek | Delsi/Pages/Insigths.js:23-32 | exactly seven buckets for days today−6 … today in ascending order, all counters 0 |
| Weekly.FindDay | Delsi/Pages/Insigths.js:36 | the first bucket whose date matches, or none when no bucket matches |
| Weekly.GenerateWeeklyData | Delsi/Pages/Insigths.js:22-55 | each bucket counts exactly the sessions of its day and sums their minutes (missing as 0); its mood score is that of the day's last session in list order, and 0 for a day without sessions |
| Weekly.OutsideWindowChangesNothing | Delsi/Pages/Insigths.js:34-40 | a session dated outside the seven days changes no bucket |
| MoodStats.TallyMoods | Delsi/Pages/Insigths.js:86-90 | each mood's counter equals the number of sessions that ended in that mood; unknown or missing moods are not counted |
| MoodStats.DropEmpty | Delsi/Pages/Insigths.js:96 | the result is a subsequence of the input, holds exactly the positive slices, and is as long as the number of positive slices in the input, so every positive slice is kept in its place; an ascending list stays ascending |
| MoodStats.DropEmptyUnique | Delsi/Pages/Insigths.js:96 | those facts determine the filter's result: any list meeting them is `DropEmpty`'s |
| MoodStats.MoodDistribution | Delsi/Pages/Insigths.js:77-97 | one slice per mood some session ended in, carrying that mood's count, in label order; a mood is absent iff its count is 0 |
| MoodStats.DistributionTotal | Delsi/Pages/Insigths.js:86-96 | the slice values add up to the number of sessions with one of the five known moods |
| MoodStats.HappyHappySad | Delsi/Pages/Insigths.js:77-96 | moods happy, happy, sad give sad:1 and happy:2, and nothing else |
| Topics.CountTopics | Delsi/Pages/Insigths.js:100-106 | one entry per distinct topic, whose count is its number of occurrences across all sessions' topic lists (repeats within a session included) |
| Topics.SortByCount | Delsi/Pages/Insigths.js:108-109 | the sorted entries are a permutation of the tally with counts non-increasing |
| Topics.TopTopics | Delsi/Pages/Insigths.js:99-112 | at most five entries, counts non-increasing, positive and exact, no topic twice; a topic left out occurs no more often than every shown entry, and five are then shown |
| Topics.SleepStressWork | Delsi/Pages/Insigths.js:99-112 | topics [sleep, stress], [sleep], [work] rank sleep:2, stress:1, work:1 |
| Totals.TotalMinutes | Delsi/Pages/Insigths.js:114-116 | the reduce equals the sum of every session's minutes, missing counted as 0 |
| Totals.TotalMinutesAppend | Delsi/Pages/Insigths.js:114-116 | totals add over concatenated session lists |
| Totals.AverageSessionLength | Delsi/Pages/Insigths.js:118-121 | 0 without sessions; otherwise the integer nearest to total/count, halves up |
| Totals.AverageWithin | Delsi/Pages/Insigths.js:118-121 | durations between 0 and m minutes give an average between 0 and m |
| Streak.CurrentStreak | Delsi/Pages/Insigths.js:123-143 | 0 without sessions, never over 30; otherwise the run of consecutive days with a session starting today (or yesterday when today is empty), ended by the first empty day |
| Streak.WalkIsRun | Delsi/Pages/Insigths.js:129-140 | past offset 0 the loop adds exactly the length of the run of session days from where it stands |
| Streak.BeyondGapIgnored | Delsi/Pages/Insigths.js:135-139 | after an empty day at offset ≥ 1, a session further back does not change the streak |
| Streak.GapAfterThreeDays | Delsi/Pages/Insigths.js:123-143 | sessions today, −1, −2 and −4 (none at −3) give a streak of 3 |
| Recognition.CollectFrom | Delsi/Pages/Chat.js:232-242 | the loop appends the final and the interim transcripts of the results it visits to its two running strings |
| Recognition.Collect | Delsi/Pages/Chat.js:231-242 | one event yields the final and interim texts of the results from `resultIndex` on |
| Recognition.FinalTextAppend | Delsi/Pages/Chat.js:235-241 | the final text of consecutive result batches is the concatenation of theirs |
| Recognition.OnlyFinalsCommit | Delsi/Pages/Chat.js:237-241 | a batch of interim results commits nothing and displays every transcript |
| Recognition.InterimIgnored | Delsi/Pages/Chat.js:237-241 | in any batch, mixed or not, changing an interim result's transcript leaves the committed text unchanged |
| Chat.SessionMode | Delsi/Pages/Chat.js:37 | a missing or empty mode parameter means "classic"; any other value is kept |
| Chat.WelcomeOnlyByGuided | Delsi/Pages/Chat.js:40-42 | the greeting depends only on whether the mode is "guided", and the two greetings differ |
| Chat.Append | Delsi/Pages/Chat.js:144-151 | an appended message gets id length+1 and keeps position-numbering |
| Chat.InitializeSession | Delsi/Pages/Chat.js:39-52 | the log becomes exactly one assistant greeting with id 1; nothing else changes |
| Chat.StartSession | Delsi/Pages/Chat.js:68-71 | the session becomes active with the given start time; nothing else changes (`Chat.SendMessage` goes through it on the first message, Delsi/Pages/Chat.js:155-158) |
| Chat.LoadUser | Delsi/Pages/Chat.js:54-62 | a signed-in user is kept and the log becomes the single greeting, with every other field untouched; a failed lookup changes nothing |
| Chat.RecentWindow | Delsi/Pages/Chat.js:162-163 | the window is the last min(n, 6) messages, in log order |
| Chat.ContextLines | Delsi/Pages/Chat.js:162-165 | one Therapist:/User: line per message of that window, in order |
| Chat.FocusAreas | Delsi/Pages/Chat.js:171 | the expectations joined by ", ", or "General support" when that is unavailable or empty |
| Chat.ReplyPromptFor | Delsi/Pages/Chat.js:161-176 | the mode line is "Guided therapy with structured approach" exactly when the mode is "guided", otherwise "Free-form supportive conversation"; the focus areas are `FocusAreas`; the conversation is the `ContextLines` joined by newlines, empty exactly when the log is; the new message is the input as typed, untrimmed |
| Chat.FocusFallbackIff | Delsi/Pages/Chat.js:171 | the fallback applies to a present list exactly when it is empty or is [""] |
| Chat.SendLog | Delsi/Pages/Chat.js:143-196 | a send keeps the old log as a prefix and adds the user's message with id n+1, then the reply with id n+2 when the model gives one (nothing on failure); ids stay equal to positions |
| Chat.SendMessage | Delsi/Pages/Chat.js:141-211 | blank input or a pending reply changes nothing; otherwise the user message gets id n+1 and a reply, when the model answers, id n+2, the old log stays a prefix, the input is cleared, loading ends, the session becomes active and keeps an existing start time, and the prompt is built from the log before the new message; ids stay equal to positions |
| Chat.CanSendIff | Delsi/Pages/Chat.js:142 | a send goes ahead exactly when the input is not all white space and no reply is pending |
| Chat.DurationMinutes | Delsi/Pages/Chat.js:76 | elapsed milliseconds become the nearest whole minute, halves up |
| Chat.DurationExample | Delsi/Pages/Chat.js:76 | 125 seconds give 2 minutes |
| Chat.TranscriptSnoc | Delsi/Pages/Chat.js:77-79 | one more message adds exactly one AI:/User: line at the end of the transcript |
| Chat.EndSession | Delsi/Pages/Chat.js:73-139 | without an active, started session nothing happens; otherwise loading ends and log and session stay, the record is stored iff analysis and store both succeed, with the rounded duration, the full transcript, the page mode, mode "voice" iff voice mode, and the analysis's mood, summary, key topics and recommended activities; the page redirects exactly then |
| Chat.StartVoiceRecording | Delsi/Pages/Chat.js:213-260 | without a recognition engine nothing changes; otherwise a handle is installed |
| Chat.OnRecognitionStart | Delsi/Pages/Chat.js:226-229 | listening and voice mode become true; nothing else changes |
| Chat.StopListening | Delsi/Pages/Chat.js:251-268 | the engine's error and end callbacks and `stopVoiceRecording` all make listening false and change nothing else; the handle stays installed |
| Chat.OnRecognitionResult | Delsi/Pages/Chat.js:231-249 | the input grows by exactly the new final text; the interim display shows the interim text, cleared when the final text is non-empty; nothing else changes |
| Chat.ResultsAcrossEvents | Delsi/Pages/Chat.js:235-246 | results split over two events commit the same text as one event carrying them all |
| Chat.ResultsAfterStopStillCommit | Delsi/Pages/Chat.js:231-268 | a result event after a stop commits the same text as before it |
| Chat.OnSpeechEnd | Delsi/Pages/Chat.js:204 | speaking becomes false; nothing else changes |
| Chat.TypeInput | Delsi/Pages/Chat.js:395 | the input becomes the typed text; nothing else changes |
| Chat.StepKeepsConsistent | Delsi/Pages/Chat.js:141-158 | every event keeps ids equal to positions and "start time set iff active"; a start time, once set, never changes; only a user load replaces the log |
| Chat.RunKeepsConsistent | Delsi/Pages/Chat.js:68-71 | along any sequence of events the state stays consistent and a recorded start time never changes; a sequence with no user load keeps the log as a prefix |
| Chat.FreshRunsConsistent | Delsi/Pages/Chat.js:24-33 | the page opens with no user, an empty log and no session, and any sequence of events from there keeps the state consistent |
| Onboarding.HandleNext | Onboarding.js:69-89 | on step 4 the answers plus onboarding_completed are saved and the step moves to 5 only if the save succeeds, the loading flag is cleared whatever the outcome and nothing else changes; on step 5 the step stays and the page redirects; elsewhere the step moves on by one; the answers never change |
| Onboarding.HandleBack | Onboarding.js:91-95 | one step back when above 0, unchanged at 0 |
| Onboarding.ApplyKeepsValid | Onboarding.js:69-95 | Next and Back keep the step within 0..5 |
| Onboarding.WalkKeepsValid | Onboarding.js:11-18 | any sequence of Next and Back from a valid step stays within the six steps |
| Onboarding.WalkFromStart | Onboarding.js:56-64 | the wizard opens on step 0 with empty answers and not loading, and any sequence of Next and Back from there stays within the six steps |
| Onboarding.NextIgnoresCheck | Onboarding.js:265 | Next advances even when the step's check fails; only the button is disabled |
| Onboarding.CanProceedIff | Onboarding.js:106-115 | name: not all white space; age, gender, relationship: a non-empty choice; expectations: at least one; complete: always |
| Onboarding.Remove | Onboarding.js:101 | every occurrence of the value is removed; the rest keep their order and multiplicities (a subsequence whose multiset is the input's with the value's count set to 0) |
| Onboarding.Toggle | Onboarding.js:97-104 | membership of the value flips; an absent value is appended at the end; a present one is filtered out, the rest keeping their order and multiplicities |
| Onboarding.ToggleNoDuplicates | Onboarding.js:97-104 | toggling never introduces a duplicate |
| Onboarding.ToggleTwiceAbsent | Onboarding.js:97-104 | toggling an unselected value twice restores the list exactly |
| Onboarding.ToggleTwicePresent | Onboarding.js:97-104 | toggling a selected value twice keeps the selection but moves the value to the end |

## Left out

- Rendering, charts, icons, theme, navigation, authentication and the progress percentage are display or routing only. The mood display names, colours and emoji are display only too.
- The language model, the session and user stores, the clock and the speech engines are external. Their answers are inputs to the steps. The fixed instruction text of both prompts is left out; only the variable parts (mode line, focus areas, context, new message, transcript) are modelled.
- Each send and each end is one atomic step. The page itself disables the text box, the send button and the End Session button while a reply or the analysis is pending (Delsi/Pages/Chat.js:314, 403, 419), so typing, sending and ending cannot interleave. What the atomic step does leave out is the speech events that can still arrive during the wait: recognition results, errors and ends (Chat.js:226-268), the mic button, which is never disabled (Chat.js:408-413), and `utterance.onend` (Chat.js:204).
- Speech synthesis is reduced to the `speaking` flag. `rate`/`pitch` are not modelled, and neither is the queueing of `speechSynthesis.speak`.
- Dates are already-converted local day numbers, with no time zones and no `date-fns` formatting. The `(new Date() - start) / 1000 / 60` quotient is taken as exact before rounding, ignoring floating-point error.
- Weekly data is recomputed only when the session list is non-empty. With no sessions the page keeps `weeklyData` as `[]` and shows a "No Data Available" card instead of the charts, while `GenerateWeeklyData([], today)` is seven zero buckets. This React effect timing and the card are not modelled, and neither is the `loadSessions` error path.
- Topics.SortByCount: the model's insertion sort is stable, like `Array.prototype.sort`, so equal counts keep first-appearance order. No lemma states this stability.
- Topics.CountTopics: JavaScript object key order is not modelled. `Object.entries` lists integer-like keys first in numeric order. Prototype keys such as `constructor` would read an inherited value instead of `undefined`. The model treats the counter object as a plain dictionary in insertion order.
- Sessions.MoodScore: the same prototype-key caveat applies to `moodScores[...]` lookups.
- The onboarding field setters (name, age, gender and relationship clicks) are one-line record updates and have no separate model. Their effect is covered by `FormData`.

=== FILE: chat.dfy ===
/**
 * The chat page as a state machine: the message log with its numbering, the input
 * buffer fed by typing and by speech recognition, the lazily started session, the
 * reply request with its six-message context, and the end of the session with its
 * transcript and stored record. Calls to the language model, the session store, the
 * user store, the clock and the speech engines are inputs to the steps.
 */
module Chat {
  import opened Wrappers
  import opened Text
  import opened Rounding
  import opened Recognition

  datatype Sender = Ai | User

  /** One chat message; its timestamp is display-only and left out. */
  datatype Message = Message(id: int, sender: Sender, content: string)

  /** The part of the signed-in user the chat reads. */
  datatype Profile = Profile(expectations: Option<seq<string>>)

  /** The page's state variables. `recognizer` records whether a recognition handle
      has been installed as the page-global current one. */
  datatype ChatState = ChatState(
    user: Option<Profile>,
    messages: seq<Message>,
    input: string,
    interim: string,
    listening: bool,
    speaking: bool,
    active: bool,
    startTime: Option<int>,
    loading: bool,
    voiceMode: bool,
    recognizer: bool)

  /** The state before anything has loaded. */
  const Fresh: ChatState := ChatState(None, [], "", "", false, false, false, None, false, false, false)

  /** The `mode` URL parameter with its default: a missing or empty value is "classic". */
  function SessionMode(param: Option<string>): (mode: string)
    ensures param.Some? && param.value != "" ==> mode == param.value
    ensures param.None? || param.value == "" ==> mode == "classic"
  {
    if param.Some? && param.value != "" then param.value else "classic"
  }

  const GuidedWelcome: string :=
    "Hello! I'm your AI therapist. I'll guide you through a structured session today. Let's start by understanding how you're feeling right now. On a scale of 1-10, how would you rate your current emotional state?"

  const ClassicWelcome: string :=
    "Hello! I'm here to listen and support you. Feel free to share whatever is on your mind today. How are you feeling?"

  function WelcomeText(mode: string): string {
    if mode == "guided" then GuidedWelcome else ClassicWelcome
  }

  /** The greeting depends only on whether the mode is "guided", and the two greetings differ. */
  lemma WelcomeOnlyByGuided(m1: string, m2: string)
    ensures (m1 == "guided") == (m2 == "guided") ==> WelcomeText(m1) == WelcomeText(m2)
    ensures (m1 == "guided") != (m2 == "guided") ==> WelcomeText(m1) != WelcomeText(m2)
  {
    assert |GuidedWelcome| != |ClassicWelcome|;
  }

  /** Message ids are the 1-based positions in the log. */
  predicate WellNumbered(log: seq<Message>) {
    forall i :: 0 <= i < |log| ==> log[i].id == i + 1
  }

  /** Appends a message with the next id, one past the log's length. */
  function Append(log: seq<Message>, sender: Sender, content: string): (r: seq<Message>)
    ensures |r| == |log| + 1 && r[..|log|] == log
    ensures r[|log|] == Message(|log| + 1, sender, content)
    ensures WellNumbered(log) ==> WellNumbered(r)
  {
    var r := log + [Message(|log| + 1, sender, content)];
    assert r[..|log|] == log;
    r
  }

  /** `initializeSession`: the log becomes the single greeting from the assistant with
      id 1; nothing else changes. */
  function InitializeSession(s: ChatState, mode: string): (r: ChatState)
    ensures |r.messages| == 1 && r.messages[0] == Message(1, Ai, WelcomeText(mode))
    ensures WellNumbered(r.messages)
    ensures r == s.(messages := r.messages)
  {
    s.(messages := [Message(1, Ai, WelcomeText(mode))])
  }

  /** `loadUser`: a signed-in user is kept and the session initialised; otherwise the
      page redirects home and its state stays as it was. */
  function LoadUser(s: ChatState, mode: string, me: Outcome<Profile>): (r: ChatState)
    ensures me.Ok? ==> r == s.(user := Some(me.value), messages := [Message(1, Ai, WelcomeText(mode))])
    ensures me.Failed? ==> r == s
  {
    match me
    case Ok(u) => InitializeSession(s.(user := Some(u)), mode)
    case Failed => s
  }

  /** `startSession`: the session becomes active with `now` as its start time; nothing
      else changes. */
  function StartSession(s: ChatState, now: int): (r: ChatState)
    ensures r.active && r.startTime == Some(now)
    ensures r == s.(active := r.active, startTime := r.startTime)
  {
    s.(active := true, startTime := Some(now))
  }

  // ---------------------------------------------------------------------------
  // The reply prompt

  /** The number of earlier messages given to the model as context. */
  const ContextSize: nat := 6

  /** `messages.slice(-6)`: the last six messages, or all of them when fewer. */
  function RecentWindow(log: seq<Message>): (w: seq<Message>)
    ensures |w| == if |log| < ContextSize then |log| else ContextSize
    ensures forall k :: 0 <= k < |w| ==> w[k] == log[|log| - |w| + k]
  {
    if |log| <= ContextSize then log else log[|log| - ContextSize..]
  }

  /** A message as a line of the reply prompt. */
  function PromptLine(m: Message): string {
    (if m.sender == Ai then "Therapist" else "User") + ": " + m.content
  }

  /** The context lines: the last min(n, 6) messages in order, each labelled by sender. */
  function ContextLines(log: seq<Message>): (lines: seq<string>)
    ensures |lines| == if |log| < ContextSize then |log| else ContextSize
    ensures forall k :: 0 <= k < |lines| ==> lines[k] == PromptLine(log[|log| - |lines| + k])
  {
    var w := RecentWindow(log);
    seq(|w|, k requires 0 <= k < |w| => PromptLine(w[k]))
  }

  /** The user's focus areas for the prompt, "General support" when there are none. */
  function FocusAreas(user: Option<Profile>): (r: string)
    ensures user.Some? && user.value.expectations.Some? && Join(user.value.expectations.value, ", ") != ""
            ==> r == Join(user.value.expectations.value, ", ")
    ensures user.None? || user.value.expectations.None? || Join(user.value.expectations.value, ", ") == ""
            ==> r == "General support"
  {
    if user.Some? && user.value.expectations.Some? && Join(user.value.expectations.value, ", ") != ""
    then Join(user.value.expectations.value, ", ")
    else "General support"
  }

  /** The fallback is taken exactly when there is no user, no list, an empty list, or a
      list holding one empty string. */
  lemma FocusFallbackIff(user: Option<Profile>)
    requires user.Some? && user.value.expectations.Some?
    ensures Join(user.value.expectations.value, ", ") == "" <==>
            |user.value.expectations.value| == 0 || user.value.expectations.value == [""]
  {
    JoinEmptyIff(user.value.expectations.value, ", ");
  }

  /** The variable parts of the reply prompt; its fixed instruction text is left out. */
  datatype ReplyPrompt = ReplyPrompt(
    modeDescription: string,
    focusAreas: string,
    recentConversation: string,
    newMessage: string)

  /** The mode lines of the reply prompt. */
  const GuidedModeLine := "Guided therapy with structured approach"
  const FreeModeLine := "Free-form supportive conversation"

  /** The prompt built from the log as it was before the new user message: the mode
      line chosen by whether the mode is "guided", the focus areas, the context lines
      one per line (empty exactly when the log is), and the input as typed, untrimmed. */
  function ReplyPromptFor(s: ChatState, mode: string): (r: ReplyPrompt)
    ensures r.modeDescription == GuidedModeLine <==> mode == "guided"
    ensures r.modeDescription == FreeModeLine <==> mode != "guided"
    ensures r.focusAreas == FocusAreas(s.user)
    ensures r.recentConversation == Join(ContextLines(s.messages), "\n")
    ensures r.recentConversation == "" <==> |s.messages| == 0
    ensures r.newMessage == s.input
  {
    assert |GuidedModeLine| != |FreeModeLine|;
    var lines := ContextLines(s.messages);
    JoinEmptyIff(lines, "\n");
    assert |lines| > 0 ==> |lines[0]| > 0;
    ReplyPrompt(
      if mode == "guided" then GuidedModeLine else FreeModeLine,
      FocusAreas(s.user),
      Join(lines, "\n"),
      s.input)
  }

  // ---------------------------------------------------------------------------
  // Sending a message

  /** The state after a send, and the prompt sent to the model (none when the send
      was refused). */
  datatype SendStep = SendStep(state: ChatState, prompt: Option<ReplyPrompt>)

  /** Whether `sendMessage` goes ahead. */
  predicate CanSend(s: ChatState) {
    Trim(s.input) != "" && !s.loading
  }

  /** The log after a send: the user's message, then the reply when the model gives
      one, each with the next id. */
  function SendLog(log: seq<Message>, input: string, reply: Outcome<string>): (r: seq<Message>)
    ensures |r| == |log| + (if reply.Ok? then 2 else 1)
    ensures r[..|log|] == log
    ensures r[|log|] == Message(|log| + 1, User, input)
    ensures reply.Ok? ==> r[|log| + 1] == Message(|log| + 2, Ai, reply.value)
    ensures WellNumbered(log) ==> WellNumbered(r)
  {
    var withUser := Append(log, User, input);
    match reply
    case Ok(text) =>
      var r := Append(withUser, Ai, text);
      assert r[..|log|] == r[..|log| + 1][..|log|];
      r
    case Failed => withUser
  }

  /** `sendMessage`, with the model's answer (or failure) `reply`, the clock `now`
      and whether speech synthesis exists as inputs. */
  function SendMessage(s: ChatState, mode: string, now: int, reply: Outcome<string>, canSpeak: bool): (r: SendStep)
    ensures WellNumbered(s.messages) ==> WellNumbered(r.state.messages)
    ensures !CanSend(s) ==> r == SendStep(s, None)
    ensures CanSend(s) ==>
      var n := |s.messages|;
      && r.prompt == Some(ReplyPromptFor(s, mode))
      && |r.state.messages| == n + (if reply.Ok? then 2 else 1)
      && r.state.messages[..n] == s.messages
      && r.state.messages[n] == Message(n + 1, User, s.input)
      && (reply.Ok? ==> r.state.messages[n + 1] == Message(n + 2, Ai, reply.value))
      && r.state.input == "" && !r.state.loading && r.state.active
      && r.state.startTime == (if s.active then s.startTime else Some(now))
      && r.state.speaking == (s.speaking || (reply.Ok? && s.voiceMode && canSpeak))
      && r.state == s.(messages := r.state.messages, input := "", loading := false, active := true,
                       startTime := r.state.startTime, speaking := r.state.speaking)
  {
    if !CanSend(s) then SendStep(s, None)
    else
      var log := SendLog(s.messages, s.input, reply);
      // the session starts on the first message that goes ahead
      var live := if !s.active then StartSession(s, now) else s;
      var speaking := if reply.Ok? && s.voiceMode && canSpeak then true else s.speaking;
      SendStep(live.(messages := log, input := "", loading := false, speaking := speaking),
               Some(ReplyPromptFor(s, mode)))
  }

  /** The send guard is exactly "the input is all white space, or a reply is pending". */
  lemma CanSendIff(s: ChatState)
    ensures CanSend(s) <==> !Blank(s.input) && !s.loading
  {
    TrimEmptyIffBlank(s.input);
  }

  // ---------------------------------------------------------------------------
  // Ending the session

  /** One recommended activity as the model returns it. */
  datatype Activity = Activity(activity: Option<string>, description: Option<string>)

  /** The model's session analysis; fields it leaves out are missing. */
  datatype Analysis = Analysis(
    summary: Option<string>,
    keyTopics: Option<seq<string>>,
    moodAssessment: Option<string>,
    recommendedActivities: Option<seq<Activity>>)

  /** The record written to the session store. */
  datatype SessionRecord = SessionRecord(
    sessionType: string,
    mode: string,
    durationMinutes: int,
    moodAfter: Option<string>,
    summary: Option<string>,
    keyTopics: Option<seq<string>>,
    recommendedActivities: Option<seq<Activity>>,
    transcript: string)

  /** The state after an end request, the transcript sent for analysis (none when the
      request was ignored), the record the store accepted, and whether the page moves
      on to the session report. */
  datatype EndStep = EndStep(state: ChatState, analysed: Option<string>, stored: Option<SessionRecord>, redirect: bool)

  const MillisPerMinute: int := 60000

  /** Elapsed milliseconds to whole minutes, rounded to nearest with halves up. */
  function DurationMinutes(startMs: int, endMs: int): (m: int)
    ensures 2 * MillisPerMinute * m - MillisPerMinute <= 2 * (endMs - startMs) < 2 * MillisPerMinute * m + MillisPerMinute
  {
    RoundDiv(endMs - startMs, MillisPerMinute)
  }

  /** Two minutes and five seconds round to two minutes. */
  lemma DurationExample(t: int)
    ensures DurationMinutes(t, t + 125000) == 2
  {
    RoundDivUnique(125000, MillisPerMinute, 2);
  }

  /** A message as a transcript line. */
  function TranscriptLine(m: Message): string {
    (if m.sender == Ai then "AI" else "User") + ": " + m.content
  }

  /** The transcript: one labelled line per message, in log order. */
  function TranscriptText(log: seq<Message>): string {
    Join(seq(|log|, k requires 0 <= k < |log| => TranscriptLine(log[k])), "\n")
  }

  /** One more message adds exactly one line at the end of the transcript. */
  lemma TranscriptSnoc(log: seq<Message>, m: Message)
    requires |log| > 0
    ensures TranscriptText(log + [m]) == TranscriptText(log) + "\n" + TranscriptLine(m)
  {
    var lines := seq(|log|, k requires 0 <= k < |log| => TranscriptLine(log[k]));
    var log' := log + [m];
    assert seq(|log'|, k requires 0 <= k < |log'| => TranscriptLine(log'[k])) == lines + [TranscriptLine(m)];
    JoinSnoc(lines, TranscriptLine(m), "\n");
  }

  /** `endSession`, with the clock `now`, the model's analysis and whether the store
      accepted the record as inputs. It does nothing unless a session is active and
      started; otherwise it always clears the loading flag and leaves the log and the
      session as they were, and the record is kept only when both calls succeed. */
  function EndSession(s: ChatState, mode: string, now: int, analysis: Outcome<Analysis>, accepted: bool): (r: EndStep)
    ensures !s.active || s.startTime.None? ==> r == EndStep(s, None, None, false)
    ensures s.active && s.startTime.Some? ==>
      && r.state == s.(loading := false)
      && r.analysed == Some(TranscriptText(s.messages))
      && (r.stored.Some? <==> analysis.Ok? && accepted)
      && r.redirect == r.stored.Some?
    ensures r.stored.Some? ==>
      && r.stored.value.durationMinutes == DurationMinutes(s.startTime.value, now)
      && r.stored.value.transcript == TranscriptText(s.messages)
      && r.stored.value.sessionType == mode
      && (r.stored.value.mode == "voice" <==> s.voiceMode)
      && (r.stored.value.mode == "text" <==> !s.voiceMode)
      && r.stored.value.moodAfter == analysis.value.moodAssessment
      && r.stored.value.keyTopics == analysis.value.keyTopics
      && r.stored.value.summary == analysis.value.summary
      && r.stored.value.recommendedActivities == analysis.value.recommendedActivities
  {
    if !s.active || s.startTime.None? then EndStep(s, None, None, false)
    else
      var duration := DurationMinutes(s.startTime.value, now);
      var transcript := TranscriptText(s.messages);
      var done := s.(loading := false);
      match analysis
      case Failed => EndStep(done, Some(transcript), None, false)
      case Ok(a) =>
        var record := SessionRecord(mode, if s.voiceMode then "voice" else "text", duration,
                                    a.moodAssessment, a.summary, a.keyTopics, a.recommendedActivities, transcript);
        if accepted then EndStep(done, Some(transcript), Some(record), true)
        else EndStep(done, Some(transcript), None, false)
  }

  // ---------------------------------------------------------------------------
  // Speech capture and playback

  /** `startVoiceRecording`: without a recognition engine nothing changes (the user
      is told); otherwise a handle is started and installed. */
  function StartVoiceRecording(s: ChatState, engineAvailable: bool): (r: ChatState)
    ensures !engineAvailable ==> r == s
    ensures engineAvailable ==> r == s.(recognizer := true)
  {
    if !engineAvailable then s else s.(recognizer := true)
  }

  /** The engine reports it started: listening, and the session counts as voice. */
  function OnRecognitionStart(s: ChatState): (r: ChatState)
    ensures r.listening && r.voiceMode
    ensures r == s.(listening := true, voiceMode := true)
  {
    s.(listening := true, voiceMode := true)
  }

  /** The engine's error and end callbacks and `stopVoiceRecording` (which also asks
      the installed handle, if any, to stop) all do the same: listening stops and
      nothing else changes. The handle stays installed. */
  function StopListening(s: ChatState): (r: ChatState)
    ensures !r.listening && r == s.(listening := false)
  {
    s.(listening := false)
  }

  /** The recognition result handler: the final text of the results delivered anew
      is appended to the input, and the interim display shows their interim text,
      or is cleared when the final text is non-empty. Nothing else changes. */
  function OnRecognitionResult(s: ChatState, rs: seq<SpeechResult>, resultIndex: nat): (r: ChatState)
    ensures r.input == s.input + FinalText(Delivered(rs, resultIndex))
    ensures r.interim == if FinalText(Delivered(rs, resultIndex)) == "" then InterimText(Delivered(rs, resultIndex)) else ""
    ensures r == s.(input := r.input, interim := r.interim)
  {
    var c := Collect(rs, resultIndex);
    var shown := s.(interim := c.interim);
    if c.final != "" then shown.(input := s.input + c.final, interim := "") else shown
  }

  /** Results arriving in two events, the second picking up where the first left off,
      commit the same text as one event delivering them all. */
  lemma ResultsAcrossEvents(s: ChatState, rs: seq<SpeechResult>, more: seq<SpeechResult>, i: nat)
    requires i <= |rs|
    ensures OnRecognitionResult(OnRecognitionResult(s, rs, i), rs + more, |rs|).input
            == OnRecognitionResult(s, rs + more, i).input
  {
    assert (rs + more)[|rs|..] == more;
    assert (rs + more)[i..] == rs[i..] + more;
    FinalTextAppend(rs[i..], more);
  }

  /** The handler does not consult the listening flag: results delivered after a stop
      still reach the input. */
  lemma ResultsAfterStopStillCommit(s: ChatState, rs: seq<SpeechResult>, resultIndex: nat)
    ensures OnRecognitionResult(StopListening(s), rs, resultIndex).input
            == OnRecognitionResult(s, rs, resultIndex).input
  {
  }

  /** The narration of a reply finished. */
  function OnSpeechEnd(s: ChatState): (r: ChatState)
    ensures !r.speaking && r == s.(speaking := false)
  {
    s.(speaking := false)
  }

  /** The text box's change handler: the input becomes what was typed. */
  function TypeInput(s: ChatState, text: string): (r: ChatState)
    ensures r.input == text && r == s.(input := text)
  {
    s.(input := text)
  }

  // ---------------------------------------------------------------------------
  // Runs of events

  /** Everything that can happen on the page, with the collaborators' answers. */
  datatype ChatEvent =
    | UserLoaded(me: Outcome<Profile>)
    | Typed(text: string)
    | Send(now: int, reply: Outcome<string>, canSpeak: bool)
    | End(now: int, analysis: Outcome<Analysis>, accepted: bool)
    | StartVoice(engineAvailable: bool)
    | RecognitionStarted
    | RecognitionResult(results: seq<SpeechResult>, resultIndex: nat)
    | RecognitionError
    | RecognitionEnded
    | StopVoice
    | SpeechEnded

  function Step(s: ChatState, mode: string, e: ChatEvent): ChatState {
    match e
    case UserLoaded(me) => LoadUser(s, mode, me)
    case Typed(text) => TypeInput(s, text)
    case Send(now, reply, canSpeak) => SendMessage(s, mode, now, reply, canSpeak).state
    case End(now, analysis, accepted) => EndSession(s, mode, now, analysis, accepted).state
    case StartVoice(available) => StartVoiceRecording(s, available)
    case RecognitionStarted => OnRecognitionStart(s)
    case RecognitionResult(rs, i) => OnRecognitionResult(s, rs, i)
    case RecognitionError => StopListening(s)
    case RecognitionEnded => StopListening(s)
    case StopVoice => StopListening(s)
    case SpeechEnded => OnSpeechEnd(s)
  }

  /** The events applied in order. */
  function Run(s: ChatState, mode: string, events: seq<ChatEvent>): ChatState
    decreases |events|
  {
    if |events| == 0 then s else Run(Step(s, mode, events[0]), mode, events[1..])
  }

  /** The log is numbered by position, and a start time is recorded exactly when the
      session is active. */
  ghost predicate Consistent(s: ChatState) {
    WellNumbered(s.messages) && (s.active <==> s.startTime.Some?)
  }

  /** Every event keeps the state consistent; once recorded, the start time never
      changes; and only a user load replaces the log, every other event keeps it as
      a prefix. */
  lemma StepKeepsConsistent(s: ChatState, mode: string, e: ChatEvent)
    requires Consistent(s)
    ensures Consistent(Step(s, mode, e))
    ensures s.startTime.Some? ==> Step(s, mode, e).startTime == s.startTime
    ensures !e.UserLoaded? ==> s.messages <= Step(s, mode, e).messages
  {
    if e.Send? {
      var r := SendMessage(s, mode, e.now, e.reply, e.canSpeak);
      if CanSend(s) {
        assert r.state.messages[..|s.messages|] == s.messages;
      }
    }
  }

  /** Along any run of events the state stays consistent and a recorded start time
      never changes; a run without a user load keeps the log as a prefix. */
  lemma {:induction false} RunKeepsConsistent(s: ChatState, mode: string, events: seq<ChatEvent>)
    requires Consistent(s)
    ensures Consistent(Run(s, mode, events))
    ensures s.startTime.Some? ==> Run(s, mode, events).startTime == s.startTime
    ensures (forall k :: 0 <= k < |events| ==> !events[k].UserLoaded?) ==>
              s.messages <= Run(s, mode, events).messages
    decreases |events|
  {
    if |events| > 0 {
      var next := Step(s, mode, events[0]);
      StepKeepsConsistent(s, mode, events[0]);
      RunKeepsConsistent(next, mode, events[1..]);
      if forall k :: 0 <= k < |events| ==> !events[k].UserLoaded? {
        assert forall k :: 0 <= k < |events[1..]| ==> events[1..][k] == events[k + 1];
        PrefixTransitive(s.messages, next.messages, Run(next, mode, events[1..]).messages);
      }
    }
  }

  /** The page opens with no user, an empty log and no active session, and every run
      of events from there keeps the state consistent. */
  lemma FreshRunsConsistent(mode: string, events: seq<ChatEvent>)
    ensures Fresh.user.None? && Fresh.messages == [] && !Fresh.active && Fresh.startTime.None?
    ensures Consistent(Run(Fresh, mode, events))
  {
    RunKeepsConsistent(Fresh, mode, events);
  }

  lemma PrefixTransitive(a: seq<Message>, b: seq<Message>, c: seq<Message>)
    requires a <= b && b <= c
    ensures a <= c
  {
    assert b[..|a|] == a && c[..|b|] == b;
    assert c[..|a|] == c[..|b|][..|a|];
  }
}

=== FILE: mood_stats.dfy ===
/**
 * The insights page's mood pie: how many sessions ended in each of the five moods,
 * listed in label order with empty moods left out.
 */
module MoodStats {
  import opened Wrappers
  import opened Sessions
  import opened Seqs

  /** The five counters of the page's `distribution` object. */
  datatype Tally = Tally(verySad: nat, sad: nat, neutral: nat, happy: nat, veryHappy: nat) {

    function Get(m: Mood): nat {
      match m
      case VerySad => verySad
      case Sad => sad
      case Neutral => neutral
      case Happy => happy
      case VeryHappy => veryHappy
    }

    /** One `distribution[mood]++`: that counter grows by one, the others stay. */
    function Bump(m: Mood): (t: Tally)
      ensures forall m' :: t.Get(m') == Get(m') + (if m' == m then 1 else 0)
    {
      match m
      case VerySad => this.(verySad := verySad + 1)
      case Sad => this.(sad := sad + 1)
      case Neutral => this.(neutral := neutral + 1)
      case Happy => this.(happy := happy + 1)
      case VeryHappy => this.(veryHappy := veryHappy + 1)
    }
  }

  /** One pie slice (`{name, value}`); the display name and colour are left out. */
  datatype Slice = Slice(mood: Mood, value: nat)

  /** Position of a mood in the page's label order. */
  function MoodRank(m: Mood): nat {
    match m
    case VerySad => 0
    case Sad => 1
    case Neutral => 2
    case Happy => 3
    case VeryHappy => 4
  }

  /** The test "did this session end in mood `m`". */
  function EndedIn(m: Mood): StoredSession -> bool {
    (s: StoredSession) => KnownMood(s) == Some(m)
  }

  /** The test "does this session carry one of the five mood labels". */
  const HasKnownMood: StoredSession -> bool := (s: StoredSession) => KnownMood(s).Some?

  /** Sessions that ended in mood `m`. */
  function MoodCount(ss: seq<StoredSession>, m: Mood): nat {
    CountIf(ss, EndedIn(m))
  }

  /** The counting loop: a session bumps its mood's counter when the mood is one of
      the five labels and is ignored otherwise. */
  function TallyMoods(ss: seq<StoredSession>): (t: Tally)
    ensures forall m :: t.Get(m) == MoodCount(ss, m)
  {
    if |ss| == 0 then Tally(0, 0, 0, 0, 0)
    else
      var prefix := ss[..|ss| - 1];
      var s := ss[|ss| - 1];
      var before := TallyMoods(prefix);
      var after := if KnownMood(s).Some? then before.Bump(KnownMood(s).value) else before;
      assert ss == prefix + [s];
      forall m ensures after.Get(m) == MoodCount(ss, m) {
        CountIfSnoc(prefix, s, EndedIn(m));
      }
      after
  }

  /** The slices' moods are in strictly increasing label order. */
  predicate Ascending(slices: seq<Slice>) {
    forall i, j :: 0 <= i < j < |slices| ==> MoodRank(slices[i].mood) < MoodRank(slices[j].mood)
  }

  /** The test "is this slice non-empty". */
  const Positive: Slice -> bool := (x: Slice) => x.value > 0

  /** `filter(item => item.value > 0)`: the slices kept are in the input order, all
      non-empty, and as many as the input has non-empty slices, so every non-empty
      slice is kept, in its place (`DropEmptyUnique`). */
  function DropEmpty(slices: seq<Slice>): (r: seq<Slice>)
    ensures forall x :: x in r <==> x in slices && x.value > 0
    ensures Subsequence(r, slices)
    ensures |r| == CountIf(slices, Positive)
  {
    if |slices| == 0 then []
    else
      var rest := DropEmpty(slices[1..]);
      if slices[0].value > 0 then
        assert ([slices[0]] + rest)[1..] == rest;
        [slices[0]] + rest
      else
        rest
  }

  /** Dropping slices from an ascending list leaves it ascending. */
  lemma {:induction false} DropEmptyAscending(slices: seq<Slice>)
    requires Ascending(slices)
    ensures Ascending(DropEmpty(slices))
  {
    if |slices| > 0 {
      var tail := slices[1..];
      assert Ascending(tail) by {
        forall i, j | 0 <= i < j < |tail| ensures MoodRank(tail[i].mood) < MoodRank(tail[j].mood) {
          assert tail[i] == slices[i + 1] && tail[j] == slices[j + 1];
        }
      }
      DropEmptyAscending(tail);
      var rest := DropEmpty(tail);
      assert DropEmpty(slices) == if slices[0].value > 0 then [slices[0]] + rest else rest;
      if slices[0].value > 0 {
        forall k | 0 <= k < |tail| ensures MoodRank(slices[0].mood) < MoodRank(tail[k].mood) {
          assert tail[k] == slices[k + 1];
        }
        ConsAscending(slices[0], rest, tail);
      }
    }
  }

  /** A head ranked below everything in `tail`, put before an ascending list drawn
      from `tail`, gives an ascending list. */
  lemma ConsAscending(head: Slice, rest: seq<Slice>, tail: seq<Slice>)
    requires Ascending(rest)
    requires forall x :: x in rest ==> x in tail
    requires forall k :: 0 <= k < |tail| ==> MoodRank(head.mood) < MoodRank(tail[k].mood)
    ensures Ascending([head] + rest)
  {
    var r := [head] + rest;
    forall i, j | 0 <= i < j < |r| ensures MoodRank(r[i].mood) < MoodRank(r[j].mood) {
      assert r[j] == rest[j - 1];
      if i == 0 {
        assert rest[j - 1] in rest;
        var k :| 0 <= k < |tail| && tail[k] == rest[j - 1];
      } else {
        assert r[i] == rest[i - 1];
      }
    }
  }

  /** `DropEmpty`'s contract determines its result: a list of non-empty slices taken in
      order from `slices`, as many as `slices` has non-empty ones, is `DropEmpty(slices)`. */
  lemma {:induction false} DropEmptyUnique(slices: seq<Slice>, r: seq<Slice>)
    requires forall i :: 0 <= i < |r| ==> r[i].value > 0
    requires Subsequence(r, slices)
    requires |r| == CountIf(slices, Positive)
    ensures r == DropEmpty(slices)
    decreases |slices|
  {
    if |slices| > 0 {
      var tail := slices[1..];
      var keep := slices[0].value > 0;
      assert CountIf(slices, Positive) == (if keep then 1 else 0) + CountIf(tail, Positive);
      assert DropEmpty(slices) == if keep then [slices[0]] + DropEmpty(tail) else DropEmpty(tail);
      if |r| > 0 && r[0] == slices[0] {
        DropEmptyUnique(tail, r[1..]);
        assert r == [r[0]] + r[1..];
      } else {
        if |r| > 0 {
          PositiveSubsequenceBound(r, tail);
        }
        DropEmptyUnique(tail, r);
      }
    }
  }

  /** A list of non-empty slices taken in order from `slices` is no longer than the
      number of non-empty slices there. */
  lemma {:induction false} PositiveSubsequenceBound(r: seq<Slice>, slices: seq<Slice>)
    requires forall i :: 0 <= i < |r| ==> r[i].value > 0
    requires Subsequence(r, slices)
    ensures |r| <= CountIf(slices, Positive)
    decreases |slices|
  {
    if |r| > 0 {
      if r[0] == slices[0] {
        PositiveSubsequenceBound(r[1..], slices[1..]);
      } else {
        PositiveSubsequenceBound(r, slices[1..]);
      }
    }
  }

  /** The counters in label order. */
  function AllSlices(t: Tally): seq<Slice> {
    [Slice(VerySad, t.verySad), Slice(Sad, t.sad), Slice(Neutral, t.neutral),
     Slice(Happy, t.happy), Slice(VeryHappy, t.veryHappy)]
  }

  /** `getMoodDistribution`: one slice per mood that some session ended in, with
      that mood's session count, in label order; moods nobody ended in are absent. */
  function MoodDistribution(ss: seq<StoredSession>): (r: seq<Slice>)
    ensures forall i :: 0 <= i < |r| ==> r[i].value > 0 && r[i].value == MoodCount(ss, r[i].mood)
    ensures forall m :: MoodCount(ss, m) > 0 <==> exists i :: 0 <= i < |r| && r[i].mood == m
    ensures forall i, j :: 0 <= i < j < |r| ==> MoodRank(r[i].mood) < MoodRank(r[j].mood)
  {
    var t := TallyMoods(ss);
    var r := DropEmpty(AllSlices(t));
    DropEmptyOfTally(t);
    r
  }

  /** The non-empty counters of a tally, in label order. */
  lemma DropEmptyOfTally(t: Tally)
    ensures forall i :: 0 <= i < |DropEmpty(AllSlices(t))| ==>
      DropEmpty(AllSlices(t))[i].value > 0 && DropEmpty(AllSlices(t))[i].value == t.Get(DropEmpty(AllSlices(t))[i].mood)
    ensures forall m :: t.Get(m) > 0 <==> exists i :: 0 <= i < |DropEmpty(AllSlices(t))| && DropEmpty(AllSlices(t))[i].mood == m
    ensures Ascending(DropEmpty(AllSlices(t)))
  {
    DropEmptyAscending(AllSlices(t));
    KeptSlicesExact(t);
    forall m ensures t.Get(m) > 0 <==> exists i :: 0 <= i < |DropEmpty(AllSlices(t))| && DropEmpty(AllSlices(t))[i].mood == m {
      KeptIffCounted(t, m);
    }
  }

  /** Every kept slice carries its mood's counter. */
  lemma KeptSlicesExact(t: Tally)
    ensures forall i :: 0 <= i < |DropEmpty(AllSlices(t))| ==>
      DropEmpty(AllSlices(t))[i].value > 0 && DropEmpty(AllSlices(t))[i].value == t.Get(DropEmpty(AllSlices(t))[i].mood)
  {
    var all := AllSlices(t);
    var r := DropEmpty(all);
    forall i | 0 <= i < |r| ensures r[i].value > 0 && r[i].value == t.Get(r[i].mood) {
      assert r[i] in all;
    }
  }

  /** A mood has a kept slice exactly when its counter is positive. */
  lemma KeptIffCounted(t: Tally, m: Mood)
    ensures t.Get(m) > 0 <==> exists i :: 0 <= i < |DropEmpty(AllSlices(t))| && DropEmpty(AllSlices(t))[i].mood == m
  {
    var all := AllSlices(t);
    var x := Slice(m, t.Get(m));
    assert x == all[MoodRank(m)];
    forall i | 0 <= i < |all| && all[i].mood == m ensures all[i] == x {
      assert MoodRank(all[i].mood) == i;
    }
    var r := DropEmpty(all);
    KeptMood(all, r, x);
    assert t.Get(m) > 0 ==> exists i :: 0 <= i < |DropEmpty(AllSlices(t))| && DropEmpty(AllSlices(t))[i].mood == m;
    assert (exists i :: 0 <= i < |DropEmpty(AllSlices(t))| && DropEmpty(AllSlices(t))[i].mood == m) ==> t.Get(m) > 0;
  }

  /** When `x` is the only slice for its mood and `r` keeps exactly the non-empty
      slices, that mood is kept exactly when `x` is non-empty. */
  lemma KeptMood(slices: seq<Slice>, r: seq<Slice>, x: Slice)
    requires x in slices
    requires forall i :: 0 <= i < |slices| && slices[i].mood == x.mood ==> slices[i] == x
    requires forall y :: y in r <==> y in slices && y.value > 0
    ensures x.value > 0 <==> exists i :: 0 <= i < |r| && r[i].mood == x.mood
  {
    if x.value > 0 {
      assert x in r;
      var i :| 0 <= i < |r| && r[i] == x;
      assert r[i].mood == x.mood;
    }
    if exists i :: 0 <= i < |r| && r[i].mood == x.mood {
      var i :| 0 <= i < |r| && r[i].mood == x.mood;
      assert r[i] in r;
      var k :| 0 <= k < |slices| && slices[k] == r[i];
      assert r[i] == x;
    }
  }

  /** Sum of the slice values. */
  function Total(slices: seq<Slice>): int {
    SumOf(slices, SliceValue)
  }

  /** A slice's value, as a function value. */
  const SliceValue: Slice -> int := (x: Slice) => x.value

  /** Dropping empty slices keeps the total. */
  lemma {:induction false} DropEmptyTotal(slices: seq<Slice>)
    ensures Total(DropEmpty(slices)) == Total(slices)
  {
    if |slices| > 0 {
      DropEmptyTotal(slices[1..]);
      if slices[0].value > 0 {
        assert ([slices[0]] + DropEmpty(slices[1..]))[1..] == DropEmpty(slices[1..]);
      }
    }
  }

  /** Sessions whose mood is one of the five labels. */
  function KnownMoodCount(ss: seq<StoredSession>): nat {
    CountIf(ss, HasKnownMood)
  }

  /** The five per-mood counts add up to the number of sessions with a known mood. */
  lemma {:induction false} MoodCountsSum(ss: seq<StoredSession>)
    ensures MoodCount(ss, VerySad) + MoodCount(ss, Sad) + MoodCount(ss, Neutral)
            + MoodCount(ss, Happy) + MoodCount(ss, VeryHappy) == KnownMoodCount(ss)
  {
    if |ss| > 0 {
      MoodCountsSum(ss[1..]);
    }
  }

  /** The pie accounts for every session with a known mood and for no other. */
  lemma DistributionTotal(ss: seq<StoredSession>)
    ensures Total(MoodDistribution(ss)) == KnownMoodCount(ss)
  {
    var t := TallyMoods(ss);
    DropEmptyTotal(AllSlices(t));
    AllSlicesTotal(t);
    TallyTotal(ss);
  }

  /** The counting loop's five counters add up to the sessions with a known mood. */
  lemma TallyTotal(ss: seq<StoredSession>)
    ensures TallyMoods(ss).verySad + TallyMoods(ss).sad + TallyMoods(ss).neutral
            + TallyMoods(ss).happy + TallyMoods(ss).veryHappy == KnownMoodCount(ss)
  {
    var t := TallyMoods(ss);
    assert t.verySad == t.Get(VerySad) && t.sad == t.Get(Sad) && t.neutral == t.Get(Neutral);
    assert t.happy == t.Get(Happy) && t.veryHappy == t.Get(VeryHappy);
    MoodCountsSum(ss);
  }

  /** The five slices of a tally add up to its five counters. */
  lemma AllSlicesTotal(t: Tally)
    ensures Total(AllSlices(t)) == t.verySad + t.sad + t.neutral + t.happy + t.veryHappy
  {
    var all := AllSlices(t);
    var f := SliceValue;
    assert f(all[0]) == t.verySad && f(all[1]) == t.sad && f(all[2]) == t.neutral;
    assert f(all[3]) == t.happy && f(all[4]) == t.veryHappy;
    assert all[1..][1..][1..][1..][1..] == [];
    assert SumOf(all[1..][1..][1..][1..], f) == t.veryHappy;
    assert SumOf(all[1..][1..][1..], f) == t.happy + t.veryHappy;
    assert SumOf(all[1..][1..], f) == t.neutral + t.happy + t.veryHappy;
    assert SumOf(all[1..], f) == t.sad + t.neutral + t.happy + t.veryHappy;
  }

  /** The worked example of three sessions ending happy, happy and sad: two happy and
      one sad, and nothing for the other three moods. */
  lemma HappyHappySad(today: int)
    ensures MoodDistribution([StoredSession(today, None, Some("happy"), None),
                              StoredSession(today, None, Some("happy"), None),
                              StoredSession(today, None, Some("sad"), None)])
            == [Slice(Sad, 1), Slice(Happy, 2)]
  {
    ExampleTally(today);
    ExampleSlices();
  }

  lemma ExampleTally(today: int)
    ensures TallyMoods([StoredSession(today, None, Some("happy"), None),
                        StoredSession(today, None, Some("happy"), None),
                        StoredSession(today, None, Some("sad"), None)])
            == Tally(0, 1, 0, 2, 0)
  {
    var h := StoredSession(today, None, Some("happy"), None);
    var sd := StoredSession(today, None, Some("sad"), None);
    var ss := [h, h, sd];
    assert KnownMood(h) == Some(Happy) && KnownMood(sd) == Some(Sad);
    assert ss[1..] == [h, sd] && [h, sd][1..] == [sd] && [sd][1..] == [];
    forall m ensures MoodCount(ss, m) == (if m == Happy then 2 else if m == Sad then 1 else 0) {
      assert CountIf([sd], EndedIn(m)) == (if m == Sad then 1 else 0);
      assert CountIf([h, sd], EndedIn(m)) == (if m == Happy || m == Sad then 1 else 0);
    }
    var t := TallyMoods(ss);
    assert t.verySad == t.Get(VerySad) && t.sad == t.Get(Sad) && t.neutral == t.Get(Neutral);
    assert t.happy == t.Get(Happy) && t.veryHappy == t.Get(VeryHappy);
  }

  lemma ExampleSlices()
    ensures DropEmpty(AllSlices(Tally(0, 1, 0, 2, 0))) == [Slice(Sad, 1), Slice(Happy, 2)]
  {
    var all := AllSlices(Tally(0, 1, 0, 2, 0));
    assert all[1..][1..][1..][1..][1..] == [];
    assert DropEmpty(all[1..][1..][1..][1..]) == [];
    assert DropEmpty(all[1..][1..][1..]) == [Slice(Happy, 2)];
    assert DropEmpty(all[1..][1..]) == [Slice(Happy, 2)];
    assert DropEmpty(all[1..]) == [Slice(Sad, 1), Slice(Happy, 2)];
  }
}

=== FILE: onboarding.dfy ===
/**
 * The onboarding wizard: six steps walked with Next and Back, where Next on the
 * last data step saves the answers and only moves on when the save succeeds, plus
 * the per-step check that enables Next and the multi-select of expectations.
 */
module Onboarding {
  import opened Wrappers
  import opened Text
  import opened Seqs

  datatype StepId = Name | Age | Gender | Relationship | Expectations | Complete

  /** The steps in order; titles and subtitles are display text and left out. */
  const Steps: seq<StepId> := [Name, Age, Gender, Relationship, Expectations, Complete]

  /** The answers collected so far. */
  datatype FormData = FormData(
    fullName: string,
    ageRange: string,
    gender: string,
    relationshipStatus: string,
    expectations: seq<string>)

  const EmptyForm: FormData := FormData("", "", "", "", [])

  /** What the save sends to the user store: the answers plus the completion flag. */
  datatype UserUpdate = UserUpdate(form: FormData, onboardingCompleted: bool)

  datatype Wizard = Wizard(step: int, form: FormData, loading: bool)

  const Start: Wizard := Wizard(0, EmptyForm, false)

  /** The state after Next, the update sent to the user store (if any), and whether
      the page moves on to the dashboard. */
  datatype NextResult = NextResult(wizard: Wizard, saved: Option<UserUpdate>, redirect: bool)

  /** The step index points at one of the steps. */
  predicate ValidStep(w: Wizard) {
    0 <= w.step < |Steps|
  }

  /** `handleNext`, with the outcome of the save as input. On the expectations step
      (the one before last) the answers are saved with the completion flag, and the
      wizard moves to the last step only when the save succeeds; on the last step it
      stays and redirects; on any other step it moves one step on. */
  function HandleNext(w: Wizard, saveSucceeds: bool): (r: NextResult)
    ensures w.step == |Steps| - 2 ==>
      && r.saved == Some(UserUpdate(w.form, true))
      && r.wizard.step == (if saveSucceeds then |Steps| - 1 else w.step)
      && r.wizard == w.(step := r.wizard.step, loading := false)
      && !r.redirect
    ensures w.step == |Steps| - 1 ==> r == NextResult(w, None, true)
    ensures w.step != |Steps| - 2 && w.step != |Steps| - 1 ==>
      r == NextResult(w.(step := w.step + 1), None, false)
    ensures r.wizard.form == w.form
  {
    if w.step == |Steps| - 2 then
      var update := UserUpdate(w.form, true);
      var next := if saveSucceeds then w.step + 1 else w.step;
      NextResult(w.(step := next, loading := false), Some(update), false)
    else if w.step == |Steps| - 1 then
      NextResult(w, None, true)
    else
      NextResult(w.(step := w.step + 1), None, false)
  }

  /** `handleBack`: one step back, except on the first step. */
  function HandleBack(w: Wizard): (r: Wizard)
    ensures w.step > 0 ==> r == w.(step := w.step - 1)
    ensures w.step <= 0 ==> r == w
  {
    if w.step > 0 then w.(step := w.step - 1) else w
  }

  /** The wizard's two buttons, with the save outcome for Next. */
  datatype WizardEvent = Next(saveSucceeds: bool) | Back

  function Apply(w: Wizard, e: WizardEvent): Wizard {
    match e
    case Next(ok) => HandleNext(w, ok).wizard
    case Back => HandleBack(w)
  }

  /** The events applied in order. */
  function Walk(w: Wizard, events: seq<WizardEvent>): Wizard
    decreases |events|
  {
    if |events| == 0 then w else Walk(Apply(w, events[0]), events[1..])
  }

  /** The wizard opens on the first step, with nothing answered and nothing loading,
      and from there any walk stays within the six steps. */
  lemma WalkFromStart(events: seq<WizardEvent>)
    ensures Start.step == 0 && Start.form == EmptyForm && !Start.loading
    ensures ValidStep(Walk(Start, events))
  {
    WalkKeepsValid(Start, events);
  }

  /** Next and Back never leave the six steps. */
  lemma ApplyKeepsValid(w: Wizard, e: WizardEvent)
    requires ValidStep(w)
    ensures ValidStep(Apply(w, e))
  {
  }

  /** From the first step, any sequence of Next and Back stays within the six steps. */
  lemma {:induction false} WalkKeepsValid(w: Wizard, events: seq<WizardEvent>)
    requires ValidStep(w)
    ensures ValidStep(Walk(w, events))
    decreases |events|
  {
    if |events| > 0 {
      ApplyKeepsValid(w, events[0]);
      WalkKeepsValid(Apply(w, events[0]), events[1..]);
    }
  }

  /** Next does not consult the step's check: an empty name still moves past the
      first step (only the button is disabled in that case). */
  lemma NextIgnoresCheck(form: FormData)
    requires form.fullName == ""
    ensures !CanProceed(Wizard(0, form, false))
    ensures HandleNext(Wizard(0, form, false), false).wizard.step == 1
  {
  }

  /** `canProceed`: the name step needs a name that is not all white space; the age,
      gender and relationship steps a choice; the expectations step at least one
      expectation; the last step nothing. */
  function CanProceed(w: Wizard): (ok: bool)
    requires ValidStep(w)
  {
    match Steps[w.step]
    case Name => Trim(w.form.fullName) != ""
    case Age => w.form.ageRange != ""
    case Gender => w.form.gender != ""
    case Relationship => w.form.relationshipStatus != ""
    case Expectations => |w.form.expectations| > 0
    case Complete => true
  }

  /** The check per step, in terms of the answers. */
  lemma CanProceedIff(w: Wizard)
    requires ValidStep(w)
    ensures w.step == 0 ==> (CanProceed(w) <==> !Blank(w.form.fullName))
    ensures 1 <= w.step <= 3 ==> (CanProceed(w) <==>
      [w.form.ageRange, w.form.gender, w.form.relationshipStatus][w.step - 1] != "")
    ensures w.step == 4 ==> (CanProceed(w) <==> |w.form.expectations| > 0)
    ensures w.step == 5 ==> CanProceed(w)
  {
    TrimEmptyIffBlank(w.form.fullName);
  }

  /** `filter(e => e !== value)`: every occurrence of `v` removed, order kept. */
  function Remove(xs: seq<string>, v: string): (r: seq<string>)
    ensures v !in r
    ensures forall x :: x != v ==> (x in r <==> x in xs)
    ensures Subsequence(r, xs)
    ensures multiset(r) == multiset(xs)[v := 0]
  {
    if |xs| == 0 then []
    else
      var rest := Remove(xs[1..], v);
      assert xs == [xs[0]] + xs[1..];
      if xs[0] == v then
        assert |rest| > 0 ==> rest[0] != xs[0];
        rest
      else
        assert ([xs[0]] + rest)[1..] == rest;
        [xs[0]] + rest
  }

  /** `handleExpectationToggle`: a selected value is removed, an unselected one is
      added at the end. */
  function Toggle(xs: seq<string>, v: string): (r: seq<string>)
    ensures v in r <==> v !in xs
    ensures forall x :: x != v ==> (x in r <==> x in xs)
    ensures v !in xs ==> r == xs + [v]
    ensures v in xs ==> Subsequence(r, xs) && multiset(r) == multiset(xs)[v := 0]
  {
    if v in xs then Remove(xs, v) else xs + [v]
  }

  /** No value is selected twice. */
  predicate NoDuplicates(xs: seq<string>) {
    forall i, j :: 0 <= i < j < |xs| ==> xs[i] != xs[j]
  }

  /** Removing keeps a list free of duplicates. */
  lemma {:induction false} RemoveNoDuplicates(xs: seq<string>, v: string)
    requires NoDuplicates(xs)
    ensures NoDuplicates(Remove(xs, v))
  {
    if |xs| > 0 {
      assert NoDuplicates(xs[1..]) by {
        forall i, j | 0 <= i < j < |xs[1..]| ensures xs[1..][i] != xs[1..][j] {
          assert xs[1..][i] == xs[i + 1] && xs[1..][j] == xs[j + 1];
        }
      }
      RemoveNoDuplicates(xs[1..], v);
      if xs[0] != v {
        var rest := Remove(xs[1..], v);
        assert xs[0] !in xs[1..];
        assert xs[0] !in rest;
      }
    }
  }

  /** Toggling never introduces a duplicate. */
  lemma ToggleNoDuplicates(xs: seq<string>, v: string)
    requires NoDuplicates(xs)
    ensures NoDuplicates(Toggle(xs, v))
  {
    if v in xs {
      RemoveNoDuplicates(xs, v);
    }
  }

  /** Removing a value that is not there changes nothing. */
  lemma {:induction false} RemoveAbsent(xs: seq<string>, v: string)
    requires v !in xs
    ensures Remove(xs, v) == xs
  {
    if |xs| > 0 {
      RemoveAbsent(xs[1..], v);
      assert xs == [xs[0]] + xs[1..];
    }
  }

  /** Removing distributes over concatenation. */
  lemma {:induction false} RemoveAppend(xs: seq<string>, ys: seq<string>, v: string)
    ensures Remove(xs + ys, v) == Remove(xs, v) + Remove(ys, v)
  {
    if |xs| > 0 {
      assert (xs + ys)[1..] == xs[1..] + ys;
      RemoveAppend(xs[1..], ys, v);
    } else {
      assert xs + ys == ys;
    }
  }

  /** Selecting and then deselecting an unselected value restores the list exactly. */
  lemma ToggleTwiceAbsent(xs: seq<string>, v: string)
    requires v !in xs
    ensures Toggle(Toggle(xs, v), v) == xs
  {
    RemoveAppend(xs, [v], v);
    RemoveAbsent(xs, v);
    assert [v][1..] == [];
  }

  /** Deselecting and then reselecting a selected value gives the list without it,
      with the value moved to the end: the same selection, possibly reordered. */
  lemma ToggleTwicePresent(xs: seq<string>, v: string)
    requires v in xs
    ensures Toggle(Toggle(xs, v), v) == Remove(xs, v) + [v]
    ensures forall x :: x in Toggle(Toggle(xs, v), v) <==> x in xs
  {
  }
}

=== FILE: recognition.dfy ===
/**
 * The speech-recognition result handler of the chat page: over the results of one
 * recognition event from `resultIndex` on, final segments are concatenated into the
 * text to commit and interim segments into the text to display.
 */
module Recognition {

  /** One recognition result: its best transcript and whether it is final. */
  datatype SpeechResult = SpeechResult(transcript: string, isFinal: bool)

  /** The final transcripts, concatenated in order. */
  function FinalText(rs: seq<SpeechResult>): string {
    if |rs| == 0 then "" else (if rs[0].isFinal then rs[0].transcript else "") + FinalText(rs[1..])
  }

  /** The interim transcripts, concatenated in order. */
  function InterimText(rs: seq<SpeechResult>): string {
    if |rs| == 0 then "" else (if rs[0].isFinal then "" else rs[0].transcript) + InterimText(rs[1..])
  }

  /** The two concatenations a handler run produces. */
  datatype Collected = Collected(interim: string, final: string)

  /** The loop `for (i = resultIndex; i < results.length; i++)` with its two running
      strings: it ends with the final and the interim texts of the results it visits
      appended to what it started with. */
  function CollectFrom(rs: seq<SpeechResult>, i: nat, acc: Collected): (c: Collected)
    ensures i <= |rs| ==> c.final == acc.final + FinalText(rs[i..])
    ensures i <= |rs| ==> c.interim == acc.interim + InterimText(rs[i..])
    ensures i >= |rs| ==> c == acc
    decreases |rs| - i
  {
    if i >= |rs| then acc
    else
      var next := if rs[i].isFinal then Collected(acc.interim, acc.final + rs[i].transcript)
                  else Collected(acc.interim + rs[i].transcript, acc.final);
      assert rs[i..][1..] == rs[i + 1..];
      CollectFrom(rs, i + 1, next)
  }

  /** The results one event delivers anew: those from `resultIndex` on. */
  function Delivered(rs: seq<SpeechResult>, resultIndex: nat): seq<SpeechResult> {
    if resultIndex <= |rs| then rs[resultIndex..] else []
  }

  /** Running the loop of one event yields the final and interim texts of the results
      it delivers anew. */
  function Collect(rs: seq<SpeechResult>, resultIndex: nat): (c: Collected)
    ensures c.final == FinalText(Delivered(rs, resultIndex))
    ensures c.interim == InterimText(Delivered(rs, resultIndex))
  {
    CollectFrom(rs, resultIndex, Collected("", ""))
  }

  /** The final text of consecutive batches is the concatenation of theirs. */
  lemma {:induction false} FinalTextAppend(a: seq<SpeechResult>, b: seq<SpeechResult>)
    ensures FinalText(a + b) == FinalText(a) + FinalText(b)
  {
    if |a| > 0 {
      assert (a + b)[1..] == a[1..] + b;
      FinalTextAppend(a[1..], b);
    } else {
      assert a + b == b;
    }
  }

  /** Interim results contribute nothing to the final text. */
  lemma {:induction false} OnlyFinalsCommit(rs: seq<SpeechResult>)
    requires forall i :: 0 <= i < |rs| ==> !rs[i].isFinal
    ensures FinalText(rs) == ""
    ensures InterimText(rs) == AllTranscripts(rs)
  {
    if |rs| > 0 {
      OnlyFinalsCommit(rs[1..]);
    }
  }

  /** In any batch, what an interim result says leaves the committed text unchanged. */
  lemma {:induction false} InterimIgnored(rs: seq<SpeechResult>, i: nat, t: string)
    requires i < |rs| && !rs[i].isFinal
    ensures FinalText(rs[i := rs[i].(transcript := t)]) == FinalText(rs)
  {
    var rs' := rs[i := rs[i].(transcript := t)];
    if i == 0 {
      assert rs'[1..] == rs[1..];
    } else {
      assert rs'[1..] == rs[1..][i - 1 := rs[i].(transcript := t)];
      InterimIgnored(rs[1..], i - 1, t);
    }
  }

  /** Every transcript concatenated in order, whatever its flag. */
  function AllTranscripts(rs: seq<SpeechResult>): string {
    if |rs| == 0 then "" else rs[0].transcript + AllTranscripts(rs[1..])
  }
}

=== FILE: rounding.dfy ===
/** `Math.round` applied to an exact quotient of integers. */
module Rounding {

  /** `Math.round(a / b)` for a positive divisor: the integer nearest to a/b, with
      exact halves rounded up (towards positive infinity, as JavaScript does). */
  function RoundDiv(a: int, b: int): (r: int)
    requires b > 0
    ensures 2 * b * r - b <= 2 * a < 2 * b * r + b
  {
    var q := (2 * a + b) / (2 * b);
    assert 2 * b * q <= 2 * a + b < 2 * b * q + 2 * b by {
      var rem := (2 * a + b) % (2 * b);
      assert 2 * a + b == (2 * b) * q + rem && 0 <= rem < 2 * b;
    }
    q
  }

  /** The nearest-integer characterisation determines the rounded value uniquely. */
  lemma RoundDivUnique(a: int, b: int, r: int)
    requires b > 0
    requires 2 * b * r - b <= 2 * a < 2 * b * r + b
    ensures r == RoundDiv(a, b)
  {
    var q := RoundDiv(a, b);
    var d := r - q;
    assert 2 * b * r == 2 * b * q + 2 * b * d;
    assert -2 * b < 2 * b * d < 2 * b;
  }

  /** A quotient between two integer bounds rounds to a value between them. */
  lemma RoundDivBetween(a: int, b: int, lo: int, hi: int)
    requires b > 0
    requires b * lo <= a <= b * hi
    ensures lo <= RoundDiv(a, b) <= hi
  {
    var r := RoundDiv(a, b);
    Expand(b, r, hi);
    NegativeFactor(b, 2 * r - 2 * hi - 1);
    Expand(b, lo, r);
    NegativeFactor(b, 2 * lo - 2 * r - 1);
  }

  /** Distributing a factor over 2x - 2y - 1. */
  lemma Expand(b: int, x: int, y: int)
    ensures b * (2 * x - 2 * y - 1) == 2 * b * x - 2 * b * y - b
  {
  }

  /** A negative product with a positive factor has a negative other factor. */
  lemma NegativeFactor(n: int, x: int)
    requires n > 0
    ensures n * x < 0 ==> x < 0
  {
    if x >= 0 {
      assert n * x >= 0;
    }
  }
}

=== FILE: seqs.dfy ===
/** Counting and summing over sequences: the reference definitions the aggregations
    are proved against. */
module Seqs {

  /** How many elements of `xs` satisfy `p`. */
  function CountIf<T>(xs: seq<T>, p: T -> bool): nat
  {
    if |xs| == 0 then 0 else (if p(xs[0]) then 1 else 0) + CountIf(xs[1..], p)
  }

  /** The sum of `f` over `xs`. */
  function SumOf<T>(xs: seq<T>, f: T -> int): int
  {
    if |xs| == 0 then 0 else f(xs[0]) + SumOf(xs[1..], f)
  }

  /** `xs` is `ys` with some elements left out, the rest in their order (matched
      greedily from the front). */
  predicate Subsequence<T(==)>(xs: seq<T>, ys: seq<T>)
    decreases |ys|
  {
    if |xs| == 0 then true
    else if |ys| == 0 then false
    else if xs[0] == ys[0] then Subsequence(xs[1..], ys[1..])
    else Subsequence(xs, ys[1..])
  }

  /** Counting over a sequence extended at the end adds the new element's share. */
  lemma {:induction false} CountIfSnoc<T>(xs: seq<T>, x: T, p: T -> bool)
    ensures CountIf(xs + [x], p) == CountIf(xs, p) + (if p(x) then 1 else 0)
  {
    if |xs| > 0 {
      assert (xs + [x])[1..] == xs[1..] + [x];
      CountIfSnoc(xs[1..], x, p);
    } else {
      assert (xs + [x])[1..] == [];
    }
  }

  /** Summing over a sequence extended at the end adds the new element's value. */
  lemma {:induction false} SumOfSnoc<T>(xs: seq<T>, x: T, f: T -> int)
    ensures SumOf(xs + [x], f) == SumOf(xs, f) + f(x)
  {
    if |xs| > 0 {
      assert (xs + [x])[1..] == xs[1..] + [x];
      SumOfSnoc(xs[1..], x, f);
    } else {
      assert (xs + [x])[1..] == [];
    }
  }

}

=== FILE: sessions.dfy ===
/**
 * The shared vocabulary of the chat and analytics pages: the five mood labels the
 * summariser may assign, and a persisted session record as the analytics page
 * reads it back from the store.
 */
module Sessions {
  import opened Wrappers

  datatype Mood = VerySad | Sad | Neutral | Happy | VeryHappy

  /** The name under which a mood is stored (`mood_after`). */
  function MoodLabel(m: Mood): string {
    match m
    case VerySad => "very_sad"
    case Sad => "sad"
    case Neutral => "neutral"
    case Happy => "happy"
    case VeryHappy => "very_happy"
  }

  /** Reads a stored name back; any other string is not a mood. */
  function ParseMood(name: string): Option<Mood> {
    if name == "very_sad" then Some(VerySad)
    else if name == "sad" then Some(Sad)
    else if name == "neutral" then Some(Neutral)
    else if name == "happy" then Some(Happy)
    else if name == "very_happy" then Some(VeryHappy)
    else None
  }

  /** Labels and parsing are inverse: every mood reads back as itself, and only its
      own name reads back as it. */
  lemma MoodLabelRoundTrip(m: Mood, name: string)
    ensures ParseMood(MoodLabel(m)) == Some(m)
    ensures ParseMood(name) == Some(m) ==> name == MoodLabel(m)
  {
  }

  /** The score of the mood stored on a session: 1 (very sad) to 5 (very happy), and
      the neutral 3 when the mood is missing or not one of the five labels. */
  function MoodScore(moodAfter: Option<string>): (r: int)
    ensures 1 <= r <= 5
    ensures moodAfter.None? ==> r == 3
    ensures moodAfter.Some? && ParseMood(moodAfter.value).None? ==> r == 3
    ensures moodAfter.Some? && ParseMood(moodAfter.value) == Some(VerySad) ==> r == 1
    ensures moodAfter.Some? && ParseMood(moodAfter.value) == Some(Sad) ==> r == 2
    ensures moodAfter.Some? && ParseMood(moodAfter.value) == Some(Neutral) ==> r == 3
    ensures moodAfter.Some? && ParseMood(moodAfter.value) == Some(Happy) ==> r == 4
    ensures moodAfter.Some? && ParseMood(moodAfter.value) == Some(VeryHappy) ==> r == 5
  {
    if moodAfter.None? then 3
    else match ParseMood(moodAfter.value)
      case Some(VerySad) => 1
      case Some(Sad) => 2
      case Some(Neutral) => 3
      case Some(Happy) => 4
      case Some(VeryHappy) => 5
      case None => 3
  }

  /** A stored session. `createdDay` is the calendar day of `created_date` in the
      viewer's time zone, as a day number; optional fields may be missing. */
  datatype StoredSession = StoredSession(
    createdDay: int,
    durationMinutes: Option<int>,
    moodAfter: Option<string>,
    keyTopics: Option<seq<string>>)

  /** `session.duration_minutes || 0`. */
  function Minutes(s: StoredSession): int {
    s.durationMinutes.GetOr(0)
  }

  /** The session's mood, when it is one of the five labels. */
  function KnownMood(s: StoredSession): Option<Mood> {
    if s.moodAfter.Some? then ParseMood(s.moodAfter.value) else None
  }
}

=== FILE: streak.dfy ===
/**
 * The insights page's current streak: walking back from today over at most thirty
 * days, the number of consecutive days that have a session. An empty today is
 * passed over; any later empty day ends the walk.
 */
module Streak {
  import opened Sessions

  /** How many days, counting today, the walk looks at. */
  const Horizon: nat := 30

  /** Some session was created on day `d`. */
  predicate HasSessionOn(ss: seq<StoredSession>, d: int) {
    exists i :: 0 <= i < |ss| && ss[i].createdDay == d
  }

  /** Some session was created `offset` days before `today`. */
  predicate HasSessionAt(ss: seq<StoredSession>, today: int, offset: int) {
    HasSessionOn(ss, today - offset)
  }

  /** The loop from offset `i` on, with `streak` days counted so far: a day with a
      session counts, an empty day ends the loop unless it is today (offset 0). */
  function Walk(ss: seq<StoredSession>, today: int, i: nat, streak: nat): nat
    requires i <= Horizon
    decreases Horizon - i
  {
    if i == Horizon then streak
    else if HasSessionAt(ss, today, i) then Walk(ss, today, i + 1, streak + 1)
    else if i > 0 then streak
    else Walk(ss, today, i + 1, streak)
  }

  /** The offset the run starts at: today if today has a session, else yesterday. */
  function RunStart(ss: seq<StoredSession>, today: int): nat {
    if HasSessionOn(ss, today) then 0 else 1
  }

  /** The run from offset `k`: consecutive days with a session, up to the horizon. */
  ghost predicate IsRun(ss: seq<StoredSession>, today: int, k: nat, r: nat) {
    && k + r <= Horizon
    && (forall j :: k <= j < k + r ==> HasSessionAt(ss, today, j))
    && (k + r < Horizon ==> !HasSessionAt(ss, today, k + r))
  }

  /** `getCurrentStreak`: 0 without sessions; otherwise the number of consecutive days
      with a session starting today, or starting yesterday when today has none,
      ending at the first day without one and never beyond thirty days back. */
  function CurrentStreak(ss: seq<StoredSession>, today: int): (r: nat)
    ensures |ss| == 0 ==> r == 0
    ensures r <= Horizon
    ensures IsRun(ss, today, RunStart(ss, today), r)
  {
    if |ss| == 0 then 0
    else
      WalkIsRun(ss, today, 1, 0);
      if HasSessionOn(ss, today) then
        WalkIsRun(ss, today, 1, 1);
        Walk(ss, today, 0, 0)
      else
        Walk(ss, today, 0, 0)
  }

  /** Past offset 0, the loop adds the length of the run from where it stands. */
  lemma {:induction false} WalkIsRun(ss: seq<StoredSession>, today: int, i: nat, streak: nat)
    requires 1 <= i <= Horizon
    ensures streak <= Walk(ss, today, i, streak)
    ensures IsRun(ss, today, i, Walk(ss, today, i, streak) - streak)
    decreases Horizon - i
  {
    if i < Horizon && HasSessionAt(ss, today, i) {
      WalkIsRun(ss, today, i + 1, streak + 1);
    }
  }

  /** A run is determined by where it starts. */
  lemma RunUnique(ss: seq<StoredSession>, today: int, k: nat, r1: nat, r2: nat)
    requires IsRun(ss, today, k, r1) && IsRun(ss, today, k, r2)
    ensures r1 == r2
  {
  }

  /** Once a day after today has no session, sessions further back make no
      difference: the streak is the same with or without a session that far back. */
  lemma BeyondGapIgnored(ss: seq<StoredSession>, s: StoredSession, today: int, gap: nat)
    requires 1 <= gap && !HasSessionOn(ss, today - gap)
    requires s.createdDay < today - gap
    ensures CurrentStreak(ss + [s], today) == CurrentStreak(ss, today)
  {
    var ss' := ss + [s];
    forall j | j <= gap ensures HasSessionAt(ss', today, j) <==> HasSessionAt(ss, today, j) {
      var d := today - j;
      if HasSessionOn(ss, d) {
        var i :| 0 <= i < |ss| && ss[i].createdDay == d;
        assert ss'[i] == ss[i];
      }
      if HasSessionOn(ss', d) {
        var i :| 0 <= i < |ss'| && ss'[i].createdDay == d;
        assert i < |ss| && ss[i] == ss'[i];
      }
    }
    var k := RunStart(ss, today);
    assert HasSessionAt(ss', today, 0) <==> HasSessionAt(ss, today, 0);
    assert RunStart(ss', today) == k;
    var r := CurrentStreak(ss, today);
    var r' := CurrentStreak(ss', today);
    assert k <= gap < k + r ==> HasSessionAt(ss, today, gap);
    assert k + r <= gap;
    assert IsRun(ss', today, k, r);
    RunUnique(ss', today, k, r, r');
  }

  /** The worked example: sessions today, one and two days ago and four days ago
      give a streak of 3; the session four days ago lies beyond the gap. */
  lemma GapAfterThreeDays(today: int, ss: seq<StoredSession>)
    requires forall i :: 0 <= i < |ss| ==> ss[i].createdDay in {today, today - 1, today - 2, today - 4}
    requires HasSessionOn(ss, today) && HasSessionOn(ss, today - 1) && HasSessionOn(ss, today - 2)
    ensures CurrentStreak(ss, today) == 3
  {
    assert !HasSessionAt(ss, today, 3);
    assert IsRun(ss, today, 0, 3);
    RunUnique(ss, today, 0, 3, CurrentStreak(ss, today));
  }
}

=== FILE: text.dfy ===
/**
 * The two string operations of the JavaScript runtime that the pages depend on:
 * `String.prototype.trim` and `Array.prototype.join`.
 */
module Text {

  /** The ECMAScript WhiteSpace and LineTerminator code points, which `trim` removes. */
  predicate IsSpace(c: char) {
    || c == '\t' || c == '\n' || c == '\U{B}' || c == '\U{C}' || c == '\r' || c == ' '
    || c == '\U{A0}' || c == '\U{1680}' || ('\U{2000}' <= c <= '\U{200A}')
    || c == '\U{2028}' || c == '\U{2029}' || c == '\U{202F}' || c == '\U{205F}'
    || c == '\U{3000}' || c == '\U{FEFF}'
  }

  /** Every character of `s` is white space (in particular, the empty string). */
  predicate Blank(s: string) {
    forall i :: 0 <= i < |s| ==> IsSpace(s[i])
  }

  /** Drops leading white space: the result is the suffix of `s` that starts at its
      first non-space character. */
  function TrimStart(s: string): (r: string)
    ensures |r| <= |s| && r == s[|s| - |r|..]
    ensures Blank(s[..|s| - |r|])
    ensures |r| > 0 ==> !IsSpace(r[0])
  {
    if |s| > 0 && IsSpace(s[0]) then TrimStart(s[1..]) else s
  }

  /** Drops trailing white space: the result is the prefix of `s` that ends at its
      last non-space character. */
  function TrimEnd(s: string): (r: string)
    ensures |r| <= |s| && r == s[..|r|]
    ensures Blank(s[|r|..])
    ensures |r| > 0 ==> !IsSpace(r[|r| - 1])
  {
    if |s| > 0 && IsSpace(s[|s| - 1]) then TrimEnd(s[..|s| - 1]) else s
  }

  /** `s.trim()`. */
  function Trim(s: string): string {
    TrimEnd(TrimStart(s))
  }

  /** `s.trim()` is empty (the JavaScript falsy string) exactly when `s` is all white space. */
  lemma TrimEmptyIffBlank(s: string)
    ensures Trim(s) == "" <==> Blank(s)
  {
    var t := TrimStart(s);
    if Trim(s) == "" {
      assert |t| == 0;
      assert s[..|s|] == s;
    } else {
      var r := Trim(s);
      assert r[0] == t[0] == s[|s| - |t|];
    }
  }

  /** `parts.join(sep)`: the parts in order with `sep` between neighbours. */
  function Join(parts: seq<string>, sep: string): string
  {
    if |parts| == 0 then ""
    else if |parts| == 1 then parts[0]
    else parts[0] + sep + Join(parts[1..], sep)
  }

  /** Joining one more part extends the old text by the separator and that part. */
  lemma {:induction false} JoinSnoc(parts: seq<string>, p: string, sep: string)
    requires |parts| > 0
    ensures Join(parts + [p], sep) == Join(parts, sep) + sep + p
  {
    if |parts| == 1 {
      assert parts + [p] == [parts[0], p];
      assert [parts[0], p][1..] == [p];
    } else {
      assert (parts + [p])[1..] == parts[1..] + [p];
      JoinSnoc(parts[1..], p, sep);
    }
  }

  /** Each part occurs in the joined text at the offset given by the parts and
      separators before it; the joined length counts every part and every separator. */
  lemma {:induction false} JoinLength(parts: seq<string>, sep: string)
    ensures |Join(parts, sep)| == TotalLength(parts) + (if |parts| == 0 then 0 else (|parts| - 1) * |sep|)
  {
    if |parts| > 1 {
      JoinLength(parts[1..], sep);
    }
  }

  /** Sum of the lengths of the parts. */
  function TotalLength(parts: seq<string>): nat
  {
    if |parts| == 0 then 0 else |parts[0]| + TotalLength(parts[1..])
  }

  /** With a non-empty separator, the joined text is empty exactly when there are no
      parts or a single empty part. */
  lemma JoinEmptyIff(parts: seq<string>, sep: string)
    requires |sep| > 0
    ensures Join(parts, sep) == "" <==> |parts| == 0 || (|parts| == 1 && parts[0] == "")
  {
    JoinLength(parts, sep);
    if |parts| > 1 {
      assert |Join(parts, sep)| >= |sep|;
    }
  }
}

=== FILE: topics.dfy ===
/**
 * The insights page's topic ranking: every topic string of every session counted,
 * the counts sorted from most to least frequent, and the first five kept.
 */
module Topics {
  import opened Wrappers
  import opened Sessions
  import opened Seqs

  /** One ranking entry (`{topic, count}`). */
  datatype TopicCount = TopicCount(topic: string, count: nat)

  /** Every topic occurrence, session by session in list order; a session without
      `key_topics` contributes nothing. */
  function AllTopics(ss: seq<StoredSession>): seq<string>
  {
    if |ss| == 0 then [] else ss[0].keyTopics.GetOr([]) + AllTopics(ss[1..])
  }

  /** The test "is this topic `t`". */
  function Is(t: string): string -> bool {
    (x: string) => x == t
  }

  /** How often `t` occurs among the topics, repeats inside one session included. */
  function Occurrences(ts: seq<string>, t: string): nat {
    CountIf(ts, Is(t))
  }

  /** No topic appears in two entries. */
  predicate DistinctTopics(tally: seq<TopicCount>) {
    forall i, j :: 0 <= i < j < |tally| ==> tally[i].topic != tally[j].topic
  }

  /** Some entry is for topic `t`. */
  predicate Listed(tally: seq<TopicCount>, t: string) {
    exists i :: 0 <= i < |tally| && tally[i].topic == t
  }

  /** The entry for `t`, or `|tally|` when there is none. */
  function IndexOf(tally: seq<TopicCount>, t: string): (k: nat)
    ensures k <= |tally|
    ensures k < |tally| ==> tally[k].topic == t
    ensures k == |tally| ==> !Listed(tally, t)
  {
    if |tally| == 0 then 0
    else if tally[0].topic == t then 0
    else
      var k := 1 + IndexOf(tally[1..], t);
      assert forall i :: 1 <= i < |tally| ==> tally[i] == tally[1..][i - 1];
      k
  }

  /** One `topicCount[topic] = (topicCount[topic] || 0) + 1`: an existing entry grows
      by one in place, a new topic is added at the end with count 1. */
  function Bump(tally: seq<TopicCount>, t: string): seq<TopicCount>
  {
    var k := IndexOf(tally, t);
    if k == |tally| then tally + [TopicCount(t, 1)]
    else tally[k := TopicCount(t, tally[k].count + 1)]
  }

  /** Whether `tally` is an exact count of `ts`: one entry per distinct topic, each
      with the number of times it occurs. */
  ghost predicate Counts(tally: seq<TopicCount>, ts: seq<string>) {
    && DistinctTopics(tally)
    && (forall i :: 0 <= i < |tally| ==> tally[i].count == Occurrences(ts, tally[i].topic))
    && (forall t :: Listed(tally, t) <==> Occurrences(ts, t) > 0)
  }

  /** The counting loop over all topic occurrences, in order of first appearance. */
  function CountTopics(ts: seq<string>): (tally: seq<TopicCount>)
    ensures Counts(tally, ts)
  {
    if |ts| == 0 then []
    else
      var prefix := ts[..|ts| - 1];
      var t := ts[|ts| - 1];
      var before := CountTopics(prefix);
      assert ts == prefix + [t];
      BumpStep(before, prefix, t);
      Bump(before, t)
  }

  /** Counting one more occurrence keeps the tally exact. */
  lemma BumpStep(tally: seq<TopicCount>, ts: seq<string>, t: string)
    requires Counts(tally, ts)
    ensures Counts(Bump(tally, t), ts + [t])
  {
    var r := Bump(tally, t);
    var k := IndexOf(tally, t);
    forall u ensures Occurrences(ts + [t], u) == Occurrences(ts, u) + (if u == t then 1 else 0) {
      CountIfSnoc(ts, t, Is(u));
    }
    forall u ensures Listed(r, u) <==> Occurrences(ts + [t], u) > 0 {
      if Listed(r, u) {
        var i :| 0 <= i < |r| && r[i].topic == u;
        if i < |tally| && i != k {
          assert tally[i].topic == u;
        }
      }
      if Occurrences(ts + [t], u) > 0 && u != t {
        var i :| 0 <= i < |tally| && tally[i].topic == u;
        assert r[i].topic == u;
      }
      if u == t {
        assert r[k].topic == u;
      }
    }
  }

  /** Counts from most to least frequent. */
  predicate NonIncreasing(xs: seq<TopicCount>) {
    forall i, j :: 0 <= i < j < |xs| ==> xs[i].count >= xs[j].count
  }

  /** Places `x` after every entry counted at least as often (so equal counts keep
      their earlier order). */
  function Insert(x: TopicCount, xs: seq<TopicCount>): (r: seq<TopicCount>)
    requires NonIncreasing(xs)
    ensures NonIncreasing(r)
    ensures multiset(r) == multiset(xs) + multiset{x}
    ensures |r| == |xs| + 1 && (r[0] == x || (|xs| > 0 && r[0] == xs[0]))
  {
    if |xs| == 0 then [x]
    else
      assert xs == [xs[0]] + xs[1..];
      if xs[0].count >= x.count then
        TailNonIncreasing(xs);
        var rest := Insert(x, xs[1..]);
        ConsNonIncreasing(xs[0], rest);
        [xs[0]] + rest
      else
        ConsNonIncreasing(x, xs);
        [x] + xs
  }

  lemma TailNonIncreasing(xs: seq<TopicCount>)
    requires |xs| > 0 && NonIncreasing(xs)
    ensures NonIncreasing(xs[1..])
  {
    forall i, j | 0 <= i < j < |xs| - 1 ensures xs[1..][i].count >= xs[1..][j].count {
      assert xs[1..][i] == xs[i + 1] && xs[1..][j] == xs[j + 1];
    }
  }

  /** An entry counted at least as often as the head of a sorted list may go in front. */
  lemma ConsNonIncreasing(y: TopicCount, xs: seq<TopicCount>)
    requires NonIncreasing(xs)
    requires |xs| > 0 ==> y.count >= xs[0].count
    ensures NonIncreasing([y] + xs)
  {
    var r := [y] + xs;
    forall i, j | 0 <= i < j < |r| ensures r[i].count >= r[j].count {
      assert r[j] == xs[j - 1];
      if i > 0 {
        assert r[i] == xs[i - 1];
      } else if j > 1 {
        assert xs[0].count >= xs[j - 1].count;
      }
    }
  }

  /** `sort(([,a], [,b]) => b - a)`: a stable sort from most to least frequent. */
  function SortByCount(xs: seq<TopicCount>): (r: seq<TopicCount>)
    ensures NonIncreasing(r)
    ensures multiset(r) == multiset(xs)
  {
    if |xs| == 0 then []
    else
      assert xs == xs[..|xs| - 1] + [xs[|xs| - 1]];
      Insert(xs[|xs| - 1], SortByCount(xs[..|xs| - 1]))
  }

  /** The number of entries shown. */
  const TopCount: nat := 5

  /** `getTopTopics`: the counts of all topic occurrences, most frequent first, cut
      to five. Every entry counts its topic exactly, no topic appears twice, and a
      topic left out occurs no more often than any entry shown, which then number five. */
  function TopTopics(ss: seq<StoredSession>): (r: seq<TopicCount>)
    ensures |r| <= TopCount
    ensures NonIncreasing(r)
    ensures DistinctTopics(r)
    ensures forall i :: 0 <= i < |r| ==> r[i].count > 0 && r[i].count == Occurrences(AllTopics(ss), r[i].topic)
    ensures forall t :: Occurrences(AllTopics(ss), t) > 0 && !Listed(r, t) ==>
              |r| == TopCount && forall i :: 0 <= i < |r| ==> r[i].count >= Occurrences(AllTopics(ss), t)
  {
    var ts := AllTopics(ss);
    var tally := CountTopics(ts);
    var sorted := SortByCount(tally);
    var r := if |sorted| <= TopCount then sorted else sorted[..TopCount];
    TopFacts(ts, tally, sorted, r);
    r
  }

  /** The facts `TopTopics` states, from the tally being exact and the sort being a
      non-increasing permutation of it. */
  lemma TopFacts(ts: seq<string>, tally: seq<TopicCount>, sorted: seq<TopicCount>, r: seq<TopicCount>)
    requires Counts(tally, ts)
    requires NonIncreasing(sorted) && multiset(sorted) == multiset(tally)
    requires r == if |sorted| <= TopCount then sorted else sorted[..TopCount]
    ensures NonIncreasing(r)
    ensures DistinctTopics(r)
    ensures forall i :: 0 <= i < |r| ==> r[i].count > 0 && r[i].count == Occurrences(ts, r[i].topic)
    ensures forall t :: Occurrences(ts, t) > 0 && !Listed(r, t) ==>
              |r| == TopCount && forall i :: 0 <= i < |r| ==> r[i].count >= Occurrences(ts, t)
  {
    SortedExact(ts, tally, sorted);
    SortedDistinct(ts, tally, sorted);
    forall t | Occurrences(ts, t) > 0 && !Listed(r, t)
      ensures |r| == TopCount && forall i :: 0 <= i < |r| ==> r[i].count >= Occurrences(ts, t)
    {
      OmittedRanksLower(ts, tally, sorted, r, t);
    }
  }

  /** A topic that occurs but is cut from the top entries sits after all of them. */
  lemma OmittedRanksLower(ts: seq<string>, tally: seq<TopicCount>, sorted: seq<TopicCount>, r: seq<TopicCount>, t: string)
    requires Counts(tally, ts)
    requires NonIncreasing(sorted) && multiset(sorted) == multiset(tally)
    requires r == if |sorted| <= TopCount then sorted else sorted[..TopCount]
    requires Occurrences(ts, t) > 0 && !Listed(r, t)
    ensures |r| == TopCount && forall i :: 0 <= i < |r| ==> r[i].count >= Occurrences(ts, t)
  {
    var j :| 0 <= j < |tally| && tally[j].topic == t;
    assert tally[j] in multiset(sorted);
    var p :| 0 <= p < |sorted| && sorted[p] == tally[j];
    assert p >= |r|;
  }

  /** Every entry of the sorted tally is an exact, positive count. */
  lemma SortedExact(ts: seq<string>, tally: seq<TopicCount>, sorted: seq<TopicCount>)
    requires Counts(tally, ts)
    requires multiset(sorted) == multiset(tally)
    ensures forall i :: 0 <= i < |sorted| ==> sorted[i].count > 0 && sorted[i].count == Occurrences(ts, sorted[i].topic)
  {
    forall i | 0 <= i < |sorted|
      ensures sorted[i].count > 0 && sorted[i].count == Occurrences(ts, sorted[i].topic)
    {
      assert sorted[i] in multiset(tally);
      var j :| 0 <= j < |tally| && tally[j] == sorted[i];
      assert Listed(tally, sorted[i].topic);
    }
  }

  /** Sorting keeps the topics distinct. */
  lemma SortedDistinct(ts: seq<string>, tally: seq<TopicCount>, sorted: seq<TopicCount>)
    requires Counts(tally, ts)
    requires multiset(sorted) == multiset(tally)
    ensures DistinctTopics(sorted)
  {
    SortedExact(ts, tally, sorted);
    forall e ensures multiset(sorted)[e] <= 1 {
      TallyEntriesUnique(tally, e);
    }
    NoRepeats(sorted);
  }

  /** A sequence whose multiset holds every element at most once repeats nothing. */
  lemma {:induction false} NoRepeats(xs: seq<TopicCount>)
    requires forall e :: multiset(xs)[e] <= 1
    ensures forall i, j :: 0 <= i < j < |xs| ==> xs[i] != xs[j]
  {
    if |xs| > 0 {
      assert xs == [xs[0]] + xs[1..];
      forall e ensures multiset(xs[1..])[e] <= 1 {
        assert multiset(xs)[e] == multiset([xs[0]])[e] + multiset(xs[1..])[e];
      }
      NoRepeats(xs[1..]);
      assert multiset(xs)[xs[0]] == multiset([xs[0]])[xs[0]] + multiset(xs[1..])[xs[0]];
      assert multiset(xs[1..])[xs[0]] == 0;
      forall i, j | 0 <= i < j < |xs| ensures xs[i] != xs[j] {
        if i > 0 {
          assert xs[i] == xs[1..][i - 1] && xs[j] == xs[1..][j - 1];
        } else {
          assert xs[j] in multiset(xs[1..]);
        }
      }
    }
  }

  /** A tally with distinct topics holds each entry at most once. */
  lemma {:induction false} TallyEntriesUnique(tally: seq<TopicCount>, e: TopicCount)
    requires DistinctTopics(tally)
    ensures multiset(tally)[e] <= 1
  {
    if |tally| > 0 {
      assert tally == [tally[0]] + tally[1..];
      TallyEntriesUnique(tally[1..], e);
      if tally[0] == e {
        assert e !in tally[1..];
      }
    }
  }

  /** The worked example: sessions about sleep and stress, sleep, and work rank
      sleep twice, then stress and work once each, in order of first appearance. */
  lemma SleepStressWork(today: int)
    ensures TopTopics([StoredSession(today, None, None, Some(["sleep", "stress"])),
                       StoredSession(today, None, None, Some(["sleep"])),
                       StoredSession(today, None, None, Some(["work"]))])
            == [TopicCount("sleep", 2), TopicCount("stress", 1), TopicCount("work", 1)]
  {
    var ss := [StoredSession(today, None, None, Some(["sleep", "stress"])),
               StoredSession(today, None, None, Some(["sleep"])),
               StoredSession(today, None, None, Some(["work"]))];
    ExampleTopics(today);
    ExampleCount();
    ExampleSort();
  }

  lemma ExampleTopics(today: int)
    ensures AllTopics([StoredSession(today, None, None, Some(["sleep", "stress"])),
                       StoredSession(today, None, None, Some(["sleep"])),
                       StoredSession(today, None, None, Some(["work"]))])
            == ["sleep", "stress", "sleep", "work"]
  {
    var a := StoredSession(today, None, None, Some(["sleep", "stress"]));
    var b := StoredSession(today, None, None, Some(["sleep"]));
    var c := StoredSession(today, None, None, Some(["work"]));
    assert [a, b, c][1..] == [b, c] && [b, c][1..] == [c] && [c][1..] == [];
    assert AllTopics([c]) == ["work"];
    assert AllTopics([b, c]) == ["sleep", "work"];
  }

  lemma ExampleCount()
    ensures CountTopics(["sleep", "stress", "sleep", "work"])
            == [TopicCount("sleep", 2), TopicCount("stress", 1), TopicCount("work", 1)]
  {
    var t3 := [TopicCount("sleep", 2), TopicCount("stress", 1)];
    CountThree();
    CountTopicsSnoc(["sleep", "stress", "sleep"], "work");
    assert ["sleep", "stress", "sleep"] + ["work"] == ["sleep", "stress", "sleep", "work"];
    assert t3[1..] == [TopicCount("stress", 1)] && t3[1..][1..] == [];
    assert IndexOf(t3, "work") == 2;
  }

  lemma CountThree()
    ensures CountTopics(["sleep", "stress", "sleep"]) == [TopicCount("sleep", 2), TopicCount("stress", 1)]
  {
    var t2 := [TopicCount("sleep", 1), TopicCount("stress", 1)];
    CountTwo();
    CountTopicsSnoc(["sleep", "stress"], "sleep");
    assert ["sleep", "stress"] + ["sleep"] == ["sleep", "stress", "sleep"];
    assert IndexOf(t2, "sleep") == 0;
  }

  lemma CountTwo()
    ensures CountTopics(["sleep", "stress"]) == [TopicCount("sleep", 1), TopicCount("stress", 1)]
  {
    var t1 := [TopicCount("sleep", 1)];
    CountTopicsSnoc([], "sleep");
    assert [] + ["sleep"] == ["sleep"];
    CountTopicsSnoc(["sleep"], "stress");
    assert ["sleep"] + ["stress"] == ["sleep", "stress"];
    assert t1[1..] == [];
    assert IndexOf(t1, "stress") == 1;
  }

  /** Counting one more topic is one more bump. */
  lemma CountTopicsSnoc(ts: seq<string>, t: string)
    ensures CountTopics(ts + [t]) == Bump(CountTopics(ts), t)
  {
    assert (ts + [t])[..|ts|] == ts;
  }

  lemma ExampleSort()
    ensures SortByCount([TopicCount("sleep", 2), TopicCount("stress", 1), TopicCount("work", 1)])
            == [TopicCount("sleep", 2), TopicCount("stress", 1), TopicCount("work", 1)]
  {
    var sleep, stress, work := TopicCount("sleep", 2), TopicCount("stress", 1), TopicCount("work", 1);
    SortByCountSnoc([], sleep);
    assert [] + [sleep] == [sleep];
    SortByCountSnoc([sleep], stress);
    assert [sleep] + [stress] == [sleep, stress];
    InsertSecond();
    SortByCountSnoc([sleep, stress], work);
    assert [sleep, stress] + [work] == [sleep, stress, work];
    InsertLast();
  }

  /** Sorting one more entry is one more insertion. */
  lemma SortByCountSnoc(xs: seq<TopicCount>, x: TopicCount)
    ensures SortByCount(xs + [x]) == Insert(x, SortByCount(xs))
  {
    assert (xs + [x])[..|xs|] == xs;
  }

  lemma InsertSecond()
    ensures Insert(TopicCount("stress", 1), [TopicCount("sleep", 2)])
            == [TopicCount("sleep", 2), TopicCount("stress", 1)]
  {
    assert [TopicCount("sleep", 2)][1..] == [];
  }

  lemma InsertLast()
    ensures Insert(TopicCount("work", 1), [TopicCount("sleep", 2), TopicCount("stress", 1)])
            == [TopicCount("sleep", 2), TopicCount("stress", 1), TopicCount("work", 1)]
  {
    var sleep, stress, work := TopicCount("sleep", 2), TopicCount("stress", 1), TopicCount("work", 1);
    assert [stress][1..] == [];
    assert Insert(work, [stress]) == [stress, work];
    assert [sleep, stress][1..] == [stress];
  }
}

=== FILE: totals.dfy ===
/** The insights page's headline numbers: total minutes and average session length. */
module Totals {
  import opened Sessions
  import opened Seqs
  import opened Rounding

  /** A session's minutes, missing counted as 0, as a function value. */
  const MinutesOf: StoredSession -> int := (s: StoredSession) => Minutes(s)

  /** `getTotalMinutes`: the `reduce` over the list, adding each session's minutes
      (missing as 0) to the running total, which equals the sum over all sessions. */
  function TotalMinutes(ss: seq<StoredSession>): (total: int)
    ensures total == SumOf(ss, MinutesOf)
  {
    if |ss| == 0 then 0
    else
      var prefix := ss[..|ss| - 1];
      assert ss == prefix + [ss[|ss| - 1]];
      SumOfSnoc(prefix, ss[|ss| - 1], MinutesOf);
      TotalMinutes(prefix) + Minutes(ss[|ss| - 1])
  }

  /** Totals of two lists add up to the total of their concatenation. */
  lemma TotalMinutesAppend(a: seq<StoredSession>, b: seq<StoredSession>)
    ensures TotalMinutes(a + b) == TotalMinutes(a) + TotalMinutes(b)
  {
    SumOfAppend(a, b);
  }

  lemma {:induction false} SumOfAppend(a: seq<StoredSession>, b: seq<StoredSession>)
    ensures SumOf(a + b, MinutesOf) == SumOf(a, MinutesOf) + SumOf(b, MinutesOf)
  {
    if |a| > 0 {
      assert (a + b)[1..] == a[1..] + b;
      SumOfAppend(a[1..], b);
    } else {
      assert a + b == b;
    }
  }

  /** `getAverageSessionLength`: the total divided by the number of sessions,
      rounded to the nearest whole minute (halves up), and 0 for no sessions. */
  function AverageSessionLength(ss: seq<StoredSession>): (avg: int)
    ensures |ss| == 0 ==> avg == 0
    ensures |ss| > 0 ==> 2 * |ss| * avg - |ss| <= 2 * TotalMinutes(ss) < 2 * |ss| * avg + |ss|
  {
    if |ss| > 0 then RoundDiv(TotalMinutes(ss), |ss|) else 0
  }

  /** Every session lasting between 0 and `most` minutes. */
  predicate DurationsWithin(ss: seq<StoredSession>, most: int) {
    forall i :: 0 <= i < |ss| ==> 0 <= Minutes(ss[i]) <= most
  }

  /** Durations between 0 and `most` minutes total between 0 and |ss| * most. */
  lemma {:induction false} TotalWithin(ss: seq<StoredSession>, most: int)
    requires DurationsWithin(ss, most)
    ensures 0 <= TotalMinutes(ss) <= |ss| * most
  {
    if |ss| > 0 {
      var prefix := ss[..|ss| - 1];
      assert DurationsWithin(prefix, most) by {
        forall i | 0 <= i < |prefix| ensures 0 <= Minutes(prefix[i]) <= most {
          assert prefix[i] == ss[i];
        }
      }
      TotalWithin(prefix, most);
      assert |ss| * most == |prefix| * most + most;
    }
  }

  /** The average of durations between 0 and `most` minutes lies between 0 and `most`. */
  lemma AverageWithin(ss: seq<StoredSession>, most: int)
    requires DurationsWithin(ss, most)
    ensures 0 <= AverageSessionLength(ss)
    ensures |ss| > 0 ==> AverageSessionLength(ss) <= most
  {
    TotalWithin(ss, most);
    if |ss| > 0 {
      RoundDivBetween(TotalMinutes(ss), |ss|, 0, most);
    }
  }
}

=== FILE: weekly.dfy ===
/**
 * The insights page's seven-day chart: one bucket per calendar day from six days ago
 * through today, counting the sessions of that day, adding up their minutes, and
 * keeping a mood score for the day.
 */
module Weekly {
  import opened Sessions
  import opened Seqs

  /** One day of the chart (`{date, sessions, mood_score, total_minutes}`); the
      weekday caption is derived from `day` and left out. */
  datatype Bucket = Bucket(day: int, sessions: nat, moodScore: int, totalMinutes: int)

  /** The seven days, oldest first, with every counter at zero. */
  function EmptyWeek(today: int): (w: seq<Bucket>)
    ensures |w| == 7
    ensures forall i :: 0 <= i < 7 ==> w[i] == Bucket(today - 6 + i, 0, 0, 0)
  {
    seq(7, i => Bucket(today - 6 + i, 0, 0, 0))
  }

  /** The first bucket whose day is `d` (`Array.prototype.find`), or `|week|` when
      there is none. */
  function FindDay(week: seq<Bucket>, d: int): (k: nat)
    ensures k <= |week|
    ensures k < |week| ==> week[k].day == d
    ensures forall j :: 0 <= j < k ==> week[j].day != d
  {
    if |week| == 0 then 0
    else if week[0].day == d then 0
    else 1 + FindDay(week[1..], d)
  }

  /** One iteration of the loop over the sessions: a session whose day has a bucket
      adds one session and its minutes there and overwrites the bucket's mood score. */
  function AddSession(week: seq<Bucket>, s: StoredSession): seq<Bucket>
  {
    var k := FindDay(week, s.createdDay);
    if k == |week| then week
    else week[k := Bucket(week[k].day, week[k].sessions + 1, MoodScore(s.moodAfter),
                          week[k].totalMinutes + Minutes(s))]
  }

  /** The test "was this session created on day `d`". */
  function OnDay(d: int): StoredSession -> bool {
    (s: StoredSession) => s.createdDay == d
  }

  /** A session's minutes when it was created on day `d`, else 0. */
  function MinutesIfOn(d: int): StoredSession -> int {
    (s: StoredSession) => if s.createdDay == d then Minutes(s) else 0
  }

  /** Sessions on day `d`. */
  function CountOn(ss: seq<StoredSession>, d: int): nat {
    CountIf(ss, OnDay(d))
  }

  /** Minutes of the sessions on day `d`, a missing duration counting as 0. */
  function MinutesOn(ss: seq<StoredSession>, d: int): int {
    SumOf(ss, MinutesIfOn(d))
  }

  /** `ss[j]` is the last session of day `d` in list order. */
  predicate LastOn(ss: seq<StoredSession>, d: int, j: int) {
    && 0 <= j < |ss|
    && ss[j].createdDay == d
    && forall k :: j < k < |ss| ==> ss[k].createdDay != d
  }

  /** What the chart shows after the first `|ss|` sessions have been processed. */
  ghost predicate Describes(w: seq<Bucket>, ss: seq<StoredSession>, today: int) {
    && |w| == 7
    && (forall i :: 0 <= i < 7 ==> w[i].day == today - 6 + i)
    && (forall i :: 0 <= i < 7 ==> w[i].sessions == CountOn(ss, w[i].day))
    && (forall i :: 0 <= i < 7 ==> w[i].totalMinutes == MinutesOn(ss, w[i].day))
    && (forall i :: 0 <= i < 7 && CountOn(ss, w[i].day) == 0 ==> w[i].moodScore == 0)
    && (forall i, j :: 0 <= i < 7 && LastOn(ss, w[i].day, j) ==> w[i].moodScore == MoodScore(ss[j].moodAfter))
  }

  /** `generateWeeklyData`: the sessions applied to the empty week in list order.
      Each bucket counts exactly the sessions of its day and their minutes, and shows
      the mood score of the day's last session in list order (0 for an empty day). */
  function GenerateWeeklyData(ss: seq<StoredSession>, today: int): (w: seq<Bucket>)
    ensures Describes(w, ss, today)
  {
    if |ss| == 0 then EmptyWeek(today)
    else
      var prefix := ss[..|ss| - 1];
      var s := ss[|ss| - 1];
      var before := GenerateWeeklyData(prefix, today);
      var after := AddSession(before, s);
      assert ss == prefix + [s];
      AddSessionStep(before, prefix, s, today);
      after
  }

  /** Processing one more session keeps the week describing the longer list. */
  lemma AddSessionStep(w: seq<Bucket>, ss: seq<StoredSession>, s: StoredSession, today: int)
    requires Describes(w, ss, today)
    ensures Describes(AddSession(w, s), ss + [s], today)
  {
    var ss' := ss + [s];
    var w' := AddSession(w, s);
    var k := FindDay(w, s.createdDay);
    assert k < 7 ==> k == s.createdDay - today + 6;
    forall i | 0 <= i < 7
      ensures w'[i].day == w[i].day
      ensures w'[i].sessions == CountOn(ss', w'[i].day)
      ensures w'[i].totalMinutes == MinutesOn(ss', w'[i].day)
    {
      var d := w[i].day;
      CountIfSnoc(ss, s, OnDay(d));
      SumOfSnoc(ss, s, MinutesIfOn(d));
    }
    forall i | 0 <= i < 7 && CountOn(ss', w'[i].day) == 0
      ensures w'[i].moodScore == 0
    {
      var d := w[i].day;
      CountIfSnoc(ss, s, OnDay(d));
    }
    forall i, j | 0 <= i < 7 && LastOn(ss', w'[i].day, j)
      ensures w'[i].moodScore == MoodScore(ss'[j].moodAfter)
    {
      var d := w[i].day;
      if i != k {
        assert s.createdDay != d;
        assert ss'[|ss|] == s;
        assert j < |ss|;
        forall m | j < m < |ss| ensures ss[m].createdDay != d {
          assert ss'[m] == ss[m];
        }
        assert ss'[j] == ss[j];
        assert LastOn(ss, d, j);
      } else {
        assert ss'[|ss|].createdDay == d;
        assert j == |ss|;
      }
    }
  }

  /** A session dated outside the seven days changes no bucket. */
  lemma OutsideWindowChangesNothing(ss: seq<StoredSession>, s: StoredSession, today: int)
    requires s.createdDay < today - 6 || s.createdDay > today
    ensures GenerateWeeklyData(ss + [s], today) == GenerateWeeklyData(ss, today)
  {
    assert (ss + [s])[..|ss|] == ss;
    var w := GenerateWeeklyData(ss, today);
    assert FindDay(w, s.createdDay) == 7;
  }
}

=== FILE: wrappers.dfy ===
/** Small failure-carrying datatypes shared by the rest of the model. */
module Wrappers {

  /** A value that may be absent: `null`/`undefined` in JavaScript. */
  datatype Option<+T> = None | Some(value: T) {

    /** The wrapped value, or `default` when absent (the `x || default` idiom). */
    function GetOr(default: T): T {
      match this
      case Some(v) => v
      case None => default
    }
  }

  /** What an asynchronous collaborator call delivered: a value, or a thrown error. */
  datatype Outcome<+T> = Ok(value: T) | Failed
}
